=== FILE: README.md ===
# Area-of-interest indexes: uniform grid and adaptive quadtree

This project models the two spatial indexes of the `aoi` Go package and proves
properties about them. Both indexes answer the question "which entities are
near (x, y)?".

- **Uniform grid** (`grid.go`). A square region is cut into `GridCount × GridCount`
  cells of equal width. Each cell files its entities by name. A search returns
  everything filed in the query point's cell and in the (up to eight) cells
  around it. All arithmetic is Go integer arithmetic.
- **Adaptive quadtree** (`quadtree.go`). A node covers a square. A leaf files
  entities by name. An inner node has four children, one per quarter of its
  square. A leaf that would exceed its capacity is cut into four quarters if
  the depth limit and the position of its centre allow it. Add and delete
  descend to the leaf that the position is routed to. A search collects the
  names filed in the leaves it reaches.

Modules:

| module | file | contents |
|---|---|---|
| `GoArith` | go_arith.dfy | Go's truncating `/`, `%` and `int(float64)` |
| `Aoi` | aoi.dfy | the `Entity` record (position and key) |
| `UniformGrid` | grid.dfy | grid manager, cell ids, neighbourhood scan, add, delete, search |
| `GridProofs` | grid_proofs.dfy | placement, neighbourhood and search lemmas |
| `GridScenarios` | grid_scenarios.dfy | the grid test tables and a running sequence of adds |
| `QuadTree` | quadtree.dfy | nodes, cut, routing, add, delete, both searches |
| `QuadTreeProofs` | quadtree_proofs.dfy | tree invariants, membership, depth, capacity and search lemmas |
| `QuadTreeScenarios` | quadtree_scenarios.dfy | the quadtree test tables, tree by tree |
| `QuadTreeFinding` | quadtree_finding.dfy | the search that misses the query point's own leaf |

Modelling choices:

- Every structure is an immutable value, and every operation returns the new
  value. Go's `sync.Map` becomes a Dafny `map` keyed by name.
- Quadtree coordinates are `real`s.
- Grid positions are `real`s converted with Go's truncation toward zero
  (`GoArith.Trunc`). Grid divisions use Go's truncating quotient
  (`GoArith.Quo`), not Dafny's Euclidean one.
- Search results are multisets. The program ranges over Go maps, whose order is
  unspecified, so only the contents of a result are determined. A grid search
  lists each entity at most once as long as every filed entity sits in the cell
  its position falls in (`GridProofs.InOwnCell`). A new manager satisfies that,
  and adds and deletes keep it.
- The quadtree search reports the map keys of the leaves it reaches. The
  program reports each entity's `Key` field. The two agree whenever every leaf
  files its entities under their own keys (`QuadTreeProofs.Placed`). A new
  tree satisfies it, deletes keep it, and adds keep it when the position lies
  inside the root's square (`QuadTreeProofs.AddValid`). An add outside the
  root's square files the entity in a leaf whose square does not hold it.
- The tree parameters (capacity, depth limit, radius) are carried in a
  `Config`. The tests change them on a built tree, so they are not constants.
  `NewQuadTree` sets them to the defaults 500, 4 and 16.
- `GetSurroundGrids` returns cell ids rather than cell pointers. Every cell's
  `gid` equals its key (`UniformGrid.WellFormed`), so the two carry the same
  information.
- The grid source and both test files use `Entity.Name` and `Add(*Entity)`.
  This does not match the `Entity` record and the interface in `aoi.go`, which
  have `Key` and `Add(x, y, name)`. The model reads `Name` as `Key` and reads a
  test's `Add(p)` as `Add(p.X, p.Y, p.Name)`.
- The quadtree search as the program performs it is `QuadTree.SearchAsWritten`.
  `QuadTree.Search` is the corrected search, which the rest of the model relies
  on (see "Findings").

## Model

| member | source | states |
|---|---|---|
| GoArith.Trunc | grid.go:52-53 | `int(x)` truncates toward zero: the result lies between zero and x, less than 1 away from x |
| GoArith.Rem | grid.go:66 | Go's `%` is what remains after the truncated quotient: smaller in size than the divisor, with the dividend's sign |
| GoArith.QuoTruncates | grid.go:52-53 | Go's `/` on integers is the exact quotient truncated toward zero, whatever the signs of dividend and divisor |
| GoArith.QuoRemOfNatural | grid.go:66 | on a non-negative dividend and a positive divisor, Go's `/` and `%` agree with Euclidean division |
| UniformGrid.NewGridManager | grid.go:26-44 | the constructor keeps its parameters, creates exactly the cells `0 .. N*N-1`, each cell knows its own id, and all cells are empty |
| UniformGrid.AddRow | grid.go:36-40 | one pass of the inner loop over row `y` extends the cells `0 .. y*N-1` to exactly `0 .. (y+1)*N-1`, every new cell fresh and knowing its id |
| UniformGrid.GetSurroundGrids | grid.go:59-87 | an id that is not a cell gives no cells; otherwise the cell itself comes first and every listed id is a cell |
| UniformGrid.Add | grid.go:89-93 | the entity is filed under its name in the cell of its position, replacing an earlier entity of that name; nothing else in that cell or in any other cell changes |
| UniformGrid.Delete | grid.go:95-99 | the name leaves the cell of the given position; nothing else changes, and deleting an absent name changes nothing |
| UniformGrid.Gather | grid.go:104-109 | the gathered entities are exactly the residents of the listed cells |
| GridProofs.GidLocatesCell | grid.go:46-56 | `GetGIDByPos`, dividing by the cell width `GridWidth`: for a non-negative position inside the region, the id names a cell, that cell's square holds the position, and no other cell's square does |
| GridProofs.TruncationMisplacesNegativeRegion | grid.go:52-55 | for a region below the origin, truncation toward zero maps the point (-0.5, -0.5) inside the region to id 30, which is no cell of a 5 × 5 grid, so a search there finds nothing |
| GridProofs.OutOfRegionAliases | grid.go:51-56 | positions are not bounds-checked: (250, 0) lies outside the region [0, 250)² yet maps to cell 5, whose square does not hold it |
| GridProofs.OffsetsDistinct | grid.go:69-70 | the offset tables list eight different offsets |
| GridProofs.OffsetsNonZero | grid.go:69-70 | each offset is a unit step on each axis and is never the zero offset |
| GridProofs.NeighboursDistinct | grid.go:73-80 | the scan never lists the centre cell and never lists an id twice |
| GridProofs.ScannedAreAdjacent | grid.go:73-80 | every scanned id is a cell within one column and one row of the centre |
| GridProofs.AdjacentAreScanned | grid.go:73-80 | every cell within one column and one row of the centre, other than the centre itself, is scanned |
| GridProofs.SurroundIsNeighbourhood | grid.go:59-87 | the result starts with the cell itself, lists no id twice, and holds exactly the cells within one column and one row of it |
| GridProofs.InteriorHasNine | grid.go:73-84 | a cell off every edge of the grid has nine cells in its neighbourhood |
| GridProofs.SearchIsNeighbourhood | grid.go:101-112 | `Search` returns exactly the residents of the cells around the position's cell, and nothing when the position's id is not a cell |
| GridProofs.AddInOwnCell | grid.go:89-93 | an add keeps every filed entity in the cell its own position falls in |
| GridProofs.DeleteInOwnCell | grid.go:95-99 | a delete keeps every filed entity in the cell its own position falls in |
| GridProofs.GatherOnce | grid.go:104-109 | gathering distinct cells, each holding only entities that fall in it, lists every entity at most once |
| GridProofs.SearchListsOnce | grid.go:101-112 | when every filed entity sits in its own position's cell under its own name, `Search` lists each entity at most once |
| GridProofs.ResidentsByName | grid.go:92 | a cell whose entities are filed under their names yields each filed entity once, one per name |
| GridProofs.AddThenSearchFinds | grid.go:89-112 | after an add, a search from any cell around the entity's cell finds the entity |
| GridProofs.SameLayout | grid.go:51-87 | managers that differ only in what their cells hold map positions to the same cells and scan the same neighbourhoods |
| GridProofs.AddKeepsOtherNames | grid.go:89-112 | an add changes no search result for another name, and it adds to a search nothing but the new entity |
| GridProofs.DeleteThenSearchMisses | grid.go:95-112 | once a name held by one cell is deleted at a position in that cell, no search returns that name |
| GridProofs.DeleteKeepsOtherNames | grid.go:95-112 | a delete changes no search result for another name, and it adds nothing to any search |
| GridScenarios.SurroundOfOrigin | grid_test.go:30-35 | in the 5 × 5 grid of width 250, (0, 0) has the neighbourhood {0, 1, 5, 6}, listed in scan order |
| GridScenarios.SurroundOfTopEdge | grid_test.go:36-41 | (150, 0) has the neighbourhood {2, 3, 4, 7, 8, 9} |
| GridScenarios.SurroundOfInterior | grid_test.go:42-47 | (50, 50) has the neighbourhood {0, 1, 2, 5, 6, 7, 10, 11, 12} |
| GridScenarios.SurroundOfRightEdge | grid_test.go:48-53 | (200, 100) has the neighbourhood {8, 9, 13, 14, 18, 19} |
| GridScenarios.SurroundOfCorner | grid_test.go:54-59 | (200, 200) has the neighbourhood {18, 19, 23, 24} |
| GridScenarios.AddAll | grid_test.go:107-109 | a run of adds keeps the manager's layout, keeps it well formed, and keeps every entity filed under its own name |
| GridScenarios.AddAllKeepsOthers | grid.go:89-112 | a run of adds leaves every search result for a name it does not add as it was |
| GridScenarios.AddAllOnlyAdds | grid.go:89-112 | a run of adds contributes only the added entities to a search |
| GridScenarios.AddAllFinds | grid.go:89-112 | entities of distinct names, each added in a cell around the query cell, are all found |
| GridScenarios.AddAllFiles | grid.go:89-93 | after a run of adds, a name is filed in a cell only if it was there already or an entity of that name was added at a position in that cell |
| GridScenarios.AddAllInOwnCell | grid_test.go:107-109 | a run of adds keeps every filed entity in the cell its own position falls in |
| GridScenarios.NineCells | grid_test.go:77-105 | the test's nine entities fall in cells 0, 1, 2, 1, 6, 11, 2, 7 and 12 |
| GridScenarios.AddAllExactly | grid.go:89-112 | from an empty manager, after adds of distinct names around the query cell, a search returns the added entities, each exactly once, and nothing else |
| GridScenarios.AddAllThenDelete | grid.go:95-112 | from an empty manager, deleting one added entity at its own position leaves the search returning every other added entity exactly once, and nothing else |
| GridScenarios.SearchScenarioFull | grid_test.go:107-117 | after the nine adds, the search at (50, 50) returns the nine entities a to i, each exactly once, and nothing else |
| GridScenarios.SearchScenarioAfterDelete | grid_test.go:119-126 | after deleting "i" at (100, 100), the search returns a to h, each exactly once, and nothing else |
| QuadTree.Child | quadtree.go:24 | a child is structurally smaller than its node |
| QuadTree.WithChild | quadtree.go:150 | replacing one child keeps the node's square and depth and leaves the other three children alone |
| QuadTree.NewSonNode | quadtree.go:37-49 | a son is an empty leaf one level deeper than its parent, with half its parent's side |
| QuadTree.FindSonQuadrant | quadtree.go:78-89 | the position goes to a left child exactly when it lies left of the right-down child's corner, and to an upper child exactly when it lies above it |
| QuadTree.Cut | quadtree.go:92-115 | a cut turns the leaf into an inner node over the same square and depth, whose children are the four sons |
| QuadTree.Add | quadtree.go:142-161 | an add keeps the node's square and depth, and an inner node stays inner |
| QuadTree.Delete | quadtree.go:164-174 | a delete keeps the node's square, its depth, and whether it is a leaf |
| QuadTree.LeafAt | quadtree.go:149-151 | the descent by routing ends at a leaf |
| QuadTree.NewQuadTree | quadtree.go:118-139 | a new tree has capacity 500, depth limit 4 and radius 16, and its root is an empty leaf of depth 1 over the given square |
| QuadTree.TreeAdd | quadtree.go:142-161 | adding leaves the tree's parameters and root square unchanged |
| QuadTree.TreeDelete | quadtree.go:164-174 | deleting leaves the tree's parameters and root square unchanged |
| QuadTreeProofs.RoutedQuadrant | quadtree.go:70-99 | `Intersects`, the half-open square test, holds for a quarter exactly when the point lies in the square and routing picks that quarter; no quarter holds a point outside the square |
| QuadTreeProofs.QuadrantInside | quadtree.go:94-99 | every quarter lies inside its square |
| QuadTreeProofs.SonMembers | quadtree.go:102-108 | a son (`Son`, filtering with `Within`) receives exactly the leaf's entities that lie in its quarter |
| QuadTreeProofs.CutRedistributes | quadtree.go:92-115 | after a cut, the children lie on the quarters one level down, and they hold exactly the leaf's entities that lie inside its square; an entity outside the square is dropped |
| QuadTreeProofs.MembersOfInner | quadtree.go:17-26 | an inner node holds exactly what its four children hold |
| QuadTreeProofs.ReplaceChild | quadtree.go:150 | replacing one child keeps the routing and changes only that child's share of the entities |
| QuadTreeProofs.AddFiles | quadtree.go:142-161 | after an add, the leaf the position is routed to files the new entity under its name |
| QuadTreeProofs.AddMembers | quadtree.go:142-161 | an add puts the new entity in the tree and adds nothing else; in a tree that files entities by name, no entity of another name is lost |
| QuadTreeProofs.AddKeepsOtherLeaves | quadtree.go:142-161 | an add leaves every entity filed outside the routed leaf in the tree, whatever its name; a same-name entity in another leaf stays there |
| QuadTreeProofs.AddValid | quadtree.go:142-161 | adding at a position inside the root's square keeps every quarter in place and every entity filed by name inside its leaf |
| QuadTreeProofs.DeleteRemoves | quadtree.go:164-174 | after a delete, the routed leaf files what it filed before, minus the name |
| QuadTreeProofs.DeleteAbsent | quadtree.go:164-174 | deleting a name that the routed leaf does not file leaves the whole tree unchanged |
| QuadTreeProofs.DeleteMembers | quadtree.go:164-174 | a delete removes only what the routed leaf filed under the name |
| QuadTreeProofs.DeleteValid | quadtree.go:164-174 | a delete keeps the tree's invariants |
| QuadTreeProofs.DeleteKeepsShape | quadtree.go:164-174 | a delete leaves every node of the tree with the same kind, square and depth |
| QuadTreeProofs.AddOnlyGrows | quadtree.go:142-161 | an add keeps every node's square and depth and never turns an inner node back into a leaf; only leaves are cut |
| QuadTreeProofs.AddKeepsDepth | quadtree.go:60-67 | adds never make a node deeper than the depth limit, when the tree starts within it |
| QuadTreeProofs.CutBounds | quadtree.go:92-115 | the sons of a cut sit one level down and file no more than the leaf did |
| QuadTreeProofs.AddKeepsCapacity | quadtree.go:52-67 | after an add, a leaf files more entities than the capacity only if `NeedCut` refuses to cut it: the depth limit is reached or `CanCut` fails because its centre is not strictly positive |
| QuadTreeProofs.CornerMeansOverlap | quadtree.go:188-198 | a window corner inside a square means the window meets the square |
| QuadTreeProofs.WideOverlapHasCorner | quadtree.go:193-198 | a square at least as wide as the window meets the window only if it holds one of the window's corners |
| QuadTreeProofs.CornersWithinOverlap | quadtree.go:188-208 | the search as written (`SearchByCorners`, `SearchAsWritten`) reports no more than the overlap search does |
| QuadTreeProofs.WideSearchesAgree | quadtree.go:188-208 | when no square below the root is narrower than the window, the search as written and the overlap search agree |
| QuadTreeProofs.WideBelow | quadtree.go:60-67 | a shaped tree within depth limit `d` whose square is at least `2 * r` doubled `d - deep` times has no square below it narrower than the window; each cut halves the side (quadtree.go:94-99) |
| QuadTreeProofs.MembersInBox | quadtree.go:70-75 | in a valid tree every entity lies inside the square of every node above it |
| QuadTreeProofs.SearchComplete | quadtree.go:188-208 | the overlap search (`SearchByOverlap`, `QuadTree.Search`) reports the name of every entity that lies in the window |
| QuadTreeProofs.SearchSound | quadtree.go:203-206 | the overlap search reports only names of entities filed in the tree |
| QuadTreeProofs.SearchLocal | quadtree.go:188-208 | the overlap search is selective: below an inner root, every reported name belongs to an entity of the tree whose own leaf meets the window |
| QuadTreeProofs.SearchAsWrittenLocal | quadtree.go:188-208 | the search as the program performs it is selective in the same sense: every reported name belongs to an entity whose leaf meets the window |
| QuadTreeProofs.MembersRoutable | quadtree.go:78-89 | in a valid tree every entity sits in the leaf that a descent to its own position reaches |
| QuadTreeProofs.NewTreeValid | quadtree.go:118-139 | a new tree is valid, one level deep, within capacity, and empty |
| QuadTreeProofs.AddThenSearchFinds | quadtree.go:142-185 | after an add inside the root's square, the overlap search at that position reports the name |
| QuadTreeProofs.AddThenSearchAsWrittenFinds | quadtree.go:142-208 | on a valid tree within its depth limit whose root side is at least `2 * radius` doubled `maxDeep - deep` times (256 for the defaults and a depth-1 root), the search as the program performs it reports a name just added at the query position |
| QuadTreeProofs.AddKeepsNearby | quadtree.go:142-185 | an add never hides an entity of another name from an overlap search whose window holds it |
| QuadTreeProofs.DeleteAtOwnPosition | quadtree.go:164-185 | after deleting an entity at its own position, when no other entity has its name, the name is gone from the tree and from every overlap search |
| QuadTreeProofs.DeleteAtOwnPositionAsWritten | quadtree.go:164-208 | after deleting an entity at its own position, when no other entity has its name, the search as the program performs it no longer reports the name |
| QuadTreeScenarios.FindQuadrantScenario | quadtree_test.go:12-63 | routing in the cut root and in its cut right-up child gives the quarters the test expects |
| QuadTreeScenarios.NeedCutScenario | quadtree_test.go:65-87 | with capacity 2, the root needs no cut when it holds no entity or one entity, and needs a cut once it holds two |
| QuadTreeScenarios.ScenarioTrees | quadtree_test.go:89-146 | the test's five adds and one delete build exactly the expected trees, and the delete restores the tree from before player 5 |
| QuadTreeScenarios.SearchScenarioSteps | quadtree_test.go:107-118 | after players 1 and 2, and then player 3, the search at player 1 reports the two names the test names |
| QuadTreeScenarios.SearchTree4AtP1 | quadtree_test.go:127-128 | after player 4, the search at player 1 reports players 1 and 4 |
| QuadTreeScenarios.SearchTree4And5AtP2 | quadtree_test.go:130-141 | at player 2 the search reports player 2 alone, and after player 5 is added it reports players 2 and 5 |
| QuadTreeScenarios.SearchScenario | quadtree_test.go:89-146 | the searches report 2, 2, 2, 1 and 2 names, as the test expects; the last count of 1 follows because the delete restores the tree from before player 5 (`ScenarioTrees`) |
| QuadTreeScenarios.ScenarioSearchesAgree | quadtree.go:188-208 | on the test's trees the overlap search and the search as written agree at every query point |
| QuadTreeFinding.TwoAdds | quadtree.go:142-161 | with capacity 1, two adds near the origin of the 100 × 100 square cut the tree three times, down to a 12.5-wide leaf |
| QuadTreeFinding.SearchMissesOwnLeaf | quadtree.go:193-198 | the search as written, at b's own position, reports nothing, although b is filed in the tree |
| QuadTreeFinding.SearchByOverlapFindsBoth | quadtree.go:188-208 | the overlap search at the same position reports both a and b |

## Left out

- Concurrency is not modelled: `sync.Map`, `sync.Pool`, the entity and result
  pools in `aoi.go`, and the race between `needCut` and `cutNode`. Every
  structure is an immutable value.
- The result slice that `Search` returns shares its backing array with the
  pool it is put back into. This is a pooling artefact, and the model returns a
  fresh multiset.
- Entity objects reused through the entity pool are not modelled. Every add
  creates a new `Entity` value.
- IEEE floating-point rounding is not modelled. Quadtree coordinates and
  halvings are exact `real` arithmetic. Grid positions are converted with exact
  truncation, and positions outside the range of `int` are not considered.
- The benchmarks in both test files are not modelled.
- The order of search results is not modelled, because Go map iteration order
  is unspecified. Results are multisets.
- UniformGrid.Add: a position whose id is not a cell is a precondition. The
  program dereferences a nil cell there and panics.
- UniformGrid.Delete: a position whose id is not a cell is a precondition, for
  the same reason as `Add`.
- UniformGrid.Residents: a cell's residents are the multiset of its filed
  entities, so one entity filed under two names counts once, where the program
  appends one entry per name. The two agree whenever entities are filed under
  their own names (`UniformGrid.KeyedByName`). `UniformGrid.Add` and
  `UniformGrid.Delete` keep that property, and `GridProofs.ResidentsByName`
  proves that under it a cell yields one resident per filed name.
- UniformGrid.GetGIDByPos: computes the id `gy * GridCount + gx` in unbounded
  integers. Go's `int` is 64 bits and wraps there (grid.go:55), so for a
  position beyond about 2^63 / GridCount the program's id wraps around and can
  alias a real cell. For example, cell width 1, 5 cells and position
  (1536, 3689348814741910016) give 2^64, which wraps to id 0. The model gets an
  id that is no cell, so such a position is excluded from add and delete and
  finds nothing. Behaviour for positions that far outside the region is
  therefore not modelled.
- UniformGrid.GetSurroundGrids: returns cell ids instead of cell pointers. The
  cell with id `i` is `g.grids[i]`.
- UniformGrid.GetGIDByPos, UniformGrid.Add, UniformGrid.Delete and
  UniformGrid.Search require `Usable`: a non-zero cell count and a non-zero cell
  width `AreaWidth / GridCount`. Otherwise the program divides by zero
  (grid.go:47, 52-53) and panics. The panic is not modelled.
- GridScenarios.SearchScenarioFull and GridScenarios.SearchScenarioAfterDelete:
  state the result as a multiset of entities, not as the sorted name list the
  test compares. That sorted list is determined by the multiset.
- GridProofs.GidLocatesCell: covers non-negative positions only. For negative
  ones Go truncates toward zero, and `TruncationMisplacesNegativeRegion` shows
  what goes wrong.
- QuadTree.Add: an entity re-added under an existing name at a position routed
  to a different leaf is not removed from its old leaf. The program does not
  remove it either. `AddMembers` states that nothing other than the new entity
  is added, and `AddKeepsOtherLeaves` that the old entity stays in its leaf.

## Findings

| source | as written | input that shows it | evidently intended | confidence | as-written member | corrected member |
|---|---|---|---|---|---|---|
| quadtree.go:193-198 | an inner node descends only into children that hold one of the four corners of the window `[x-r, x+r]²` | capacity 1, depth limit 4, radius 16, root square (0, 0, 100). Add "a" at (1, 1), then "b" at (2, 2): both end in a 12.5-wide leaf at depth 4. A search at (2, 2) reports nothing, because the window's corners fall outside that leaf | the search reaches every leaf whose square meets the window, so it finds every entity near the query point, including one at the query point itself | not executed | QuadTreeFinding.SearchMissesOwnLeaf | QuadTreeProofs.SearchComplete |

=== FILE: aoi.dfy ===
/**
 * The record both indexes exchange with their callers: a position and the
 * caller-chosen key that identifies the entity (a player id, say).
 */
module Aoi {

  /** `Entity{X, Y, Key}`; the coordinates are float64 in the program and are
      modelled as reals, since the indexes only compare, halve and truncate them. */
  datatype Entity = Entity(x: real, y: real, key: string)
}

=== FILE: go_arith.dfy ===
/**
 * Go's integer arithmetic and its float-to-int conversion, written out.
 *
 * Dafny's `/` and `%` on `int` are Euclidean (the remainder is never
 * negative); Go's truncate the quotient toward zero, so the remainder takes
 * the sign of the dividend. Go's `int(f)` for a float `f` also truncates
 * toward zero. Both matter for the grid index, which divides coordinates that
 * may be negative.
 */
module GoArith {

  function Abs(a: int): nat {
    if a < 0 then -a else a
  }

  /** `int(x)` for a float64 `x` in the range of `int`: truncation toward zero. */
  function Trunc(x: real): (r: int)
    ensures 0.0 <= x ==> r as real <= x < r as real + 1.0
    ensures x < 0.0 ==> r as real - 1.0 < x <= r as real
  {
    if x >= 0.0 then x.Floor else -((-x).Floor)
  }

  /** Go's `a / b`: the quotient truncated toward zero (`b == 0` panics). */
  function Quo(a: int, b: int): int
    requires b != 0
  {
    var q := Abs(a) / Abs(b);
    if (a < 0) == (b < 0) then q else -q
  }

  /** Go's `a % b`: what is left of `a` after `Quo(a, b)` whole `b`s. */
  function Rem(a: int, b: int): (r: int)
    requires b != 0
    ensures a == Quo(a, b) * b + r
    ensures Abs(r) < Abs(b)
    ensures 0 <= a ==> 0 <= r
    ensures a < 0 ==> r <= 0
  {
    var q := Abs(a) / Abs(b);
    var m := Abs(a) % Abs(b);
    assert Abs(a) == q * Abs(b) + m;
    if a < 0 then -m else m
  }

  /** On a non-negative dividend and a positive divisor, Go and Dafny agree. */
  lemma QuoRemOfNatural(a: int, b: int)
    requires 0 <= a && 0 < b
    ensures Quo(a, b) == a / b
    ensures Rem(a, b) == a % b
  {
  }

  /** At least one whole `n`. */
  lemma {:induction false} MulAtLeast(a: int, n: int)
    requires 1 <= a && 0 < n
    ensures n <= a * n
  {
    if a > 1 {
      MulAtLeast(a - 1, n);
      assert a * n == (a - 1) * n + n;
    }
  }

  /** On a non-negative dividend and a positive divisor the quotient is the
      number of whole `b`s in `a`. */
  lemma QuoOfNatural(a: int, b: int)
    requires 0 <= a && 0 < b
    ensures 0 <= Quo(a, b)
    ensures Quo(a, b) * b <= a < Quo(a, b) * b + b
  {
    var q, r := Quo(a, b), Rem(a, b);
    assert a == q * b + r && 0 <= r < b;
    if q < 0 {
      MulAtLeast(-q, b);
      assert false;
    }
  }

  /** The whole part of a non-negative real quotient is the integer quotient. */
  lemma FloorOfQuotient(a: int, b: int)
    requires 0 <= a && 0 < b
    ensures (a as real / b as real).Floor == a / b
  {
    var q, m := a / b, a % b;
    var z := a as real / b as real;
    assert a as real == q as real * b as real + m as real;
    assert z == q as real + m as real / b as real;
    assert 0.0 <= m as real / b as real < 1.0;
  }

  /** Go's integer quotient is the exact quotient truncated toward zero, as
      `int(float64(a) / float64(b))` would give it. */
  lemma QuoTruncates(a: int, b: int)
    requires b != 0
    ensures Quo(a, b) == Trunc(a as real / b as real)
  {
    var x, y := Abs(a) as real, Abs(b) as real;
    FloorOfQuotient(Abs(a), Abs(b));
    DivSigns(x, y);
    if a < 0 {
      assert a as real == -x;
    }
    if b < 0 {
      assert b as real == -y;
    }
  }

  lemma DivSigns(x: real, y: real)
    requires 0.0 < y
    ensures (-x) / (-y) == x / y && (-x) / y == -(x / y) && x / (-y) == -(x / y)
  {
  }
}

=== FILE: grid.dfy ===
/**
 * The uniform grid index: a square region cut into `gridCount × gridCount`
 * equal cells, each holding the entities resident in it by name. A search
 * returns everything resident in the cell of the query point and in the (up
 * to eight) cells around it.
 */
module UniformGrid {
  import opened Aoi
  import opened GoArith

  /** One cell: its id and its resident entities by name. */
  datatype Grid = Grid(gid: int, entities: map<string, Entity>)

  /** The manager: region origin, region width, cells per axis, and the cells by id. */
  datatype GridManager = GridManager(
    startX: int,
    startY: int,
    areaWidth: int,
    gridCount: int,
    grids: map<int, Grid>)

  /** The column offsets of the eight neighbours, in the order they are scanned. */
  const DX: seq<int> := [-1, -1, -1, 0, 0, 1, 1, 1]
  /** The matching row offsets. */
  const DY: seq<int> := [-1, 0, 1, -1, 1, -1, 0, 1]

  /** Number of cells the constructor creates for `n` cells per axis. */
  function CellCount(n: int): nat {
    if n > 0 then n * n else 0
  }

  /** The cells are exactly ids `0 .. n*n-1`, each knowing its own id. */
  ghost predicate WellFormed(g: GridManager) {
    && (forall id :: id in g.grids <==> 0 <= id < CellCount(g.gridCount))
    && (forall id :: id in g.grids ==> g.grids[id].gid == id)
  }

  /** Every resident entity is filed under its own name. */
  ghost predicate KeyedByName(g: GridManager) {
    forall id, k :: id in g.grids && k in g.grids[id].entities ==> g.grids[id].entities[k].key == k
  }

  /** No cell holds anything. */
  ghost predicate Empty(g: GridManager) {
    forall id :: id in g.grids ==> g.grids[id].entities == map[]
  }

  function NewGrid(gid: int): Grid {
    Grid(gid, map[])
  }

  /** Builds the manager and its cells, row by row, as the constructor's nested loops do. */
  method NewGridManager(startX: int, startY: int, areaWidth: int, gridCount: int) returns (g: GridManager)
    ensures g.startX == startX && g.startY == startY
    ensures g.areaWidth == areaWidth && g.gridCount == gridCount
    ensures WellFormed(g) && KeyedByName(g) && Empty(g)
  {
    var grids: map<int, Grid> := map[];
    var y := 0;
    while y < gridCount
      invariant 0 <= y <= (if 0 < gridCount then gridCount else 0)
      invariant forall id :: id in grids <==> 0 <= id < y * gridCount
      invariant forall id :: id in grids ==> grids[id] == NewGrid(id)
    {
      grids := AddRow(grids, y, gridCount);
      y := y + 1;
    }
    if gridCount > 0 {
      assert y == gridCount;
    } else {
      assert y == 0;
    }
    assert CellCount(gridCount) == y * gridCount;
    g := GridManager(startX, startY, areaWidth, gridCount, grids);
  }

  /** The constructor's inner loop: appends the cells of row `y`, ids `y*n .. y*n+n-1`. */
  method AddRow(grids: map<int, Grid>, y: int, n: int) returns (r: map<int, Grid>)
    requires 0 <= y && 0 < n
    requires forall id :: id in grids <==> 0 <= id < y * n
    requires forall id :: id in grids ==> grids[id] == NewGrid(id)
    ensures forall id :: id in r <==> 0 <= id < (y + 1) * n
    ensures forall id :: id in r ==> r[id] == NewGrid(id)
  {
    r := grids;
    var x := 0;
    while x < n
      invariant 0 <= x <= n
      invariant forall id :: id in r <==> 0 <= id < y * n + x
      invariant forall id :: id in r ==> r[id] == NewGrid(id)
    {
      var gID := y * n + x;
      r := r[gID := NewGrid(gID)];
      x := x + 1;
    }
    assert y * n + n == (y + 1) * n;
  }

  /** The divisions every operation performs are defined: Go panics on a zero divisor. */
  predicate Usable(g: GridManager) {
    g.gridCount != 0 && Quo(g.areaWidth, g.gridCount) != 0
  }

  /** Side length of one cell. */
  function GridWidth(g: GridManager): int
    requires g.gridCount != 0
  {
    Quo(g.areaWidth, g.gridCount)
  }

  /** Id of the cell a position falls in, with Go's truncating conversions. */
  function GetGIDByPos(g: GridManager, e: Entity): int
    requires Usable(g)
  {
    var gx := Quo(Trunc(e.x) - g.startX, GridWidth(g));
    var gy := Quo(Trunc(e.y) - g.startY, GridWidth(g));
    gy * g.gridCount + gx
  }

  /** Column and row of a cell id, as the neighbourhood scan recovers them. */
  function Column(n: int, id: int): int requires n != 0 { Rem(id, n) }
  function Row(n: int, id: int): int requires n != 0 { Quo(id, n) }

  /** Offset `j` from column `x`, row `y` stays inside the `n × n` grid. */
  predicate InGrid(n: int, x: int, y: int, j: nat)
    requires j < 8
  {
    0 <= x + DX[j] < n && 0 <= y + DY[j] < n
  }

  /** The id of the cell at offset `j` from column `x`, row `y`. */
  function IdAt(n: int, x: int, y: int, j: nat): int
    requires j < 8
  {
    (y + DY[j]) * n + (x + DX[j])
  }

  /** The ids of the in-range neighbours of column `x`, row `y`, scanning offsets `k .. 7`. */
  function Neighbours(n: int, x: int, y: int, k: nat): seq<int>
    requires k <= 8
    decreases 8 - k
  {
    if k == 8 then []
    else (if InGrid(n, x, y, k) then [IdAt(n, x, y, k)] else []) + Neighbours(n, x, y, k + 1)
  }

  /** Cell `c` lies within one column and one row of cell `id` (Chebyshev distance at most 1). */
  predicate Adjacent(n: int, id: int, c: int)
    requires n > 0
  {
    Abs(c % n - id % n) <= 1 && Abs(c / n - id / n) <= 1
  }

  /** A cell id determines its column and row. */
  lemma IdCoords(n: int, col: int, row: int)
    requires 0 <= col < n && 0 <= row
    ensures (row * n + col) % n == col && (row * n + col) / n == row
  {
    var id := row * n + col;
    var q, m := id / n, id % n;
    assert id == q * n + m;
    if q > row {
      assert (q - row) * n == q * n - row * n;
      MulAtLeast(q - row, n);
    } else if q < row {
      assert (row - q) * n == row * n - q * n;
      MulAtLeast(row - q, n);
    }
  }

  /** The ids of an `n × n` grid are exactly the in-range column/row pairs. */
  lemma CellIdRange(n: int, col: int, row: int)
    requires 0 <= col < n && 0 <= row < n
    ensures 0 <= row * n + col < n * n
  {
    assert row * n <= (n - 1) * n by {
      if row < n - 1 {
        MulAtLeast(n - 1 - row, n);
      }
    }
  }

  /** Column and row of an id in range are in range. */
  lemma CoordsOfId(n: int, id: int)
    requires 0 <= id < n * n && 0 < n
    ensures 0 <= id % n < n && 0 <= id / n < n
    ensures id == (id / n) * n + id % n
  {
    if id / n >= n {
      assert (id / n) * n >= n * n by {
        assert (id / n) * n == n * n + (id / n - n) * n;
        if id / n > n {
          MulAtLeast(id / n - n, n);
        }
      }
    }
  }

  /** Offset `j` of `Neighbours(n, x, y, k)` is taken exactly when it stays inside the grid. */
  lemma {:induction false} NeighboursSpec(n: int, x: int, y: int, k: nat)
    requires k <= 8
    ensures forall c :: c in Neighbours(n, x, y, k) <==>
      exists j :: k <= j < 8 && InGrid(n, x, y, j) && c == IdAt(n, x, y, j)
    decreases 8 - k
  {
    if k < 8 {
      NeighboursSpec(n, x, y, k + 1);
      forall c | c in Neighbours(n, x, y, k)
        ensures exists j :: k <= j < 8 && InGrid(n, x, y, j) && c == IdAt(n, x, y, j)
      {
        if !(InGrid(n, x, y, k) && c == IdAt(n, x, y, k)) {
          assert c in Neighbours(n, x, y, k + 1);
        }
      }
    }
  }

  /** Every neighbour id is an id of the grid. */
  lemma NeighboursInGrid(n: int, x: int, y: int)
    requires 0 <= x < n && 0 <= y < n
    ensures forall c :: c in Neighbours(n, x, y, 0) ==> 0 <= c < CellCount(n)
  {
    NeighboursSpec(n, x, y, 0);
    forall c | c in Neighbours(n, x, y, 0)
      ensures 0 <= c < CellCount(n)
    {
      var j :| 0 <= j < 8 && InGrid(n, x, y, j) && c == IdAt(n, x, y, j);
      NeighbourIdRange(n, x, y, j);
    }
  }

  lemma NeighbourIdRange(n: int, x: int, y: int, j: nat)
    requires 0 <= x < n && 0 <= y < n
    requires j < 8 && InGrid(n, x, y, j)
    ensures 0 <= IdAt(n, x, y, j) < CellCount(n)
  {
    var a, b := x + DX[j], y + DY[j];
    assert IdAt(n, x, y, j) == b * n + a;
    CellIdRange(n, a, b);
  }

  /** The column and row of a cell are in range, and so are its neighbours. */
  lemma CellOfId(g: GridManager, gID: int)
    requires WellFormed(g) && gID in g.grids
    ensures var n := g.gridCount;
      && 0 < n && 0 <= gID < n * n
      && Column(n, gID) == gID % n && Row(n, gID) == gID / n
      && 0 <= Column(n, gID) < n && 0 <= Row(n, gID) < n
      && forall c :: c in Neighbours(n, Column(n, gID), Row(n, gID), 0) ==> c in g.grids
  {
    var n := g.gridCount;
    assert 0 <= gID < CellCount(n);
    CoordsOfId(n, gID);
    QuoRemOfNatural(gID, n);
    NeighboursInGrid(n, Column(n, gID), Row(n, gID));
  }

  /** The cell itself followed by its in-range neighbours; nothing for an id that is not a cell. */
  function GetSurroundGrids(g: GridManager, gID: int): (ids: seq<int>)
    requires WellFormed(g)
    ensures gID !in g.grids ==> ids == []
    ensures gID in g.grids ==> |ids| >= 1 && ids[0] == gID
    ensures forall i :: 0 <= i < |ids| ==> ids[i] in g.grids
  {
    if gID !in g.grids then []
    else
      var n := g.gridCount;
      CellOfId(g, gID);
      var ns := Neighbours(n, Column(n, gID), Row(n, gID), 0);
      assert forall c :: c in ns ==> c in g.grids;
      [gID] + ns
  }

  /** Files `e` under its name in the cell its position falls in; the cell must exist
      (the program dereferences a missing cell). */
  function Add(g: GridManager, e: Entity): (r: GridManager)
    requires Usable(g) && GetGIDByPos(g, e) in g.grids
    ensures r == g.(grids := r.grids) && r.grids.Keys == g.grids.Keys
    ensures var id := GetGIDByPos(g, e);
      && r.grids[id].gid == g.grids[id].gid
      && e.key in r.grids[id].entities && r.grids[id].entities[e.key] == e
      && (forall k :: k != e.key ==> (k in r.grids[id].entities <==> k in g.grids[id].entities))
      && (forall k :: k != e.key && k in g.grids[id].entities ==> r.grids[id].entities[k] == g.grids[id].entities[k])
      && (forall other :: other in g.grids && other != id ==> r.grids[other] == g.grids[other])
    ensures WellFormed(g) ==> WellFormed(r)
    ensures KeyedByName(g) ==> KeyedByName(r)
  {
    var id := GetGIDByPos(g, e);
    var cell := g.grids[id];
    g.(grids := g.grids[id := cell.(entities := cell.entities[e.key := e])])
  }

  /** Removes the name of `e` from the cell its given position falls in (a no-op
      when the name is not there); the cell must exist. */
  function Delete(g: GridManager, e: Entity): (r: GridManager)
    requires Usable(g) && GetGIDByPos(g, e) in g.grids
    ensures r == g.(grids := r.grids) && r.grids.Keys == g.grids.Keys
    ensures var id := GetGIDByPos(g, e);
      && r.grids[id].gid == g.grids[id].gid
      && e.key !in r.grids[id].entities
      && (forall k :: k != e.key ==> (k in r.grids[id].entities <==> k in g.grids[id].entities))
      && (forall k :: k != e.key && k in g.grids[id].entities ==> r.grids[id].entities[k] == g.grids[id].entities[k])
      && (forall other :: other in g.grids && other != id ==> r.grids[other] == g.grids[other])
      && (e.key !in g.grids[id].entities ==> r == g)
    ensures WellFormed(g) ==> WellFormed(r)
    ensures KeyedByName(g) ==> KeyedByName(r)
  {
    var id := GetGIDByPos(g, e);
    var cell := g.grids[id];
    var r := g.(grids := g.grids[id := cell.(entities := cell.entities - {e.key})]);
    if e.key !in cell.entities then
      assert cell.entities - {e.key} == cell.entities;
      assert g.grids[id := cell] == g.grids;
      r
    else r
  }

  /** The entities resident in one cell, one per name. */
  function Residents(c: Grid): multiset<Entity> {
    multiset(c.entities.Values)
  }

  /** Everything resident in the cells `ids`, concatenated. */
  function Gather(g: GridManager, ids: seq<int>): (r: multiset<Entity>)
    requires forall i :: 0 <= i < |ids| ==> ids[i] in g.grids
    ensures forall e :: e in r <==> exists i :: 0 <= i < |ids| && e in g.grids[ids[i]].entities.Values
  {
    if |ids| == 0 then multiset{}
    else
      var rest := Gather(g, ids[1..]);
      Residents(g.grids[ids[0]]) + rest
  }

  /** Everything resident in the cell of `e`'s position and in the cells around it. */
  function Search(g: GridManager, e: Entity): multiset<Entity>
    requires Usable(g) && WellFormed(g)
  {
    Gather(g, GetSurroundGrids(g, GetGIDByPos(g, e)))
  }
}

=== FILE: grid_proofs.dfy ===
/**
 * What the uniform grid promises: positions map to the cell that contains
 * them, the neighbourhood scan returns exactly the cells around a cell, and
 * search returns exactly what is resident there.
 */
module GridProofs {
  import opened Aoi
  import opened GoArith
  import opened UniformGrid

  // ----- cell geometry -----

  lemma {:induction false} MulMono(a: int, b: int, w: int)
    requires a <= b && 0 < w
    ensures a * w <= b * w
  {
    if a < b {
      assert b * w == a * w + (b - a) * w;
      MulAtLeast(b - a, w);
    }
  }

  lemma MulSucc(a: int, w: int)
    ensures (a + 1) * w == a * w + w
  {
  }

  /** The position lies in the region `[start, start + n*w)` on both axes. */
  ghost predicate InRegion(g: GridManager, x: real, y: real)
    requires g.gridCount != 0
  {
    var span := g.gridCount * GridWidth(g);
    && g.startX as real <= x < (g.startX + span) as real
    && g.startY as real <= y < (g.startY + span) as real
  }

  /** The square of cell `id` contains the position. */
  ghost predicate InCell(g: GridManager, id: int, x: real, y: real)
    requires 0 < g.gridCount
  {
    var n, w := g.gridCount, GridWidth(g);
    var col, row := id % n, id / n;
    && (g.startX + col * w) as real <= x < (g.startX + (col + 1) * w) as real
    && (g.startY + row * w) as real <= y < (g.startY + (row + 1) * w) as real
  }

  /** On one axis: the truncated offset divided by the width is the column whose
      interval contains the coordinate, and it is in range. */
  lemma AxisLocates(start: int, w: int, n: int, x: real)
    requires 0 < w && 0 < n && 0.0 <= x
    requires start as real <= x < (start + n * w) as real
    ensures var gx := Quo(Trunc(x) - start, w);
      && 0 <= gx < n
      && (start + gx * w) as real <= x < (start + (gx + 1) * w) as real
  {
    var t := Trunc(x);
    assert t as real <= x < t as real + 1.0;
    var span := n * w;
    assert start <= t < start + span;
    var a := t - start;
    QuoOfNatural(a, w);
    var gx := Quo(a, w);
    var p := gx * w;
    assert p <= a < p + w;
    if gx >= n {
      MulMono(n, gx, w);
      assert false;
    }
    MulSucc(gx, w);
    var lo, hi := start + p, start + (gx + 1) * w;
    assert hi == lo + w;
    assert lo <= t && t + 1 <= hi;
    assert lo as real <= t as real && (t + 1) as real <= hi as real;
  }

  /** On one axis: at most one column's interval contains a coordinate. */
  lemma AxisUnique(start: int, w: int, c1: int, c2: int, x: real)
    requires 0 < w
    requires (start + c1 * w) as real <= x < (start + (c1 + 1) * w) as real
    requires (start + c2 * w) as real <= x < (start + (c2 + 1) * w) as real
    ensures c1 == c2
  {
    if c1 < c2 {
      MulMono(c1 + 1, c2, w);
    } else if c2 < c1 {
      MulMono(c2 + 1, c1, w);
    }
  }

  /** A position inside the region (with non-negative coordinates, where Go's
      truncation agrees with flooring) maps to a cell of the grid, and that cell
      is the one and only cell whose square contains it. */
  lemma GidLocatesCell(g: GridManager, e: Entity)
    requires Usable(g) && WellFormed(g) && 0 < g.gridCount && 0 < GridWidth(g)
    requires InRegion(g, e.x, e.y) && 0.0 <= e.x && 0.0 <= e.y
    ensures GetGIDByPos(g, e) in g.grids
    ensures InCell(g, GetGIDByPos(g, e), e.x, e.y)
    ensures forall c :: c in g.grids && InCell(g, c, e.x, e.y) ==> c == GetGIDByPos(g, e)
  {
    var n, w := g.gridCount, GridWidth(g);
    AxisLocates(g.startX, w, n, e.x);
    AxisLocates(g.startY, w, n, e.y);
    var gx := Quo(Trunc(e.x) - g.startX, w);
    var gy := Quo(Trunc(e.y) - g.startY, w);
    LocatedCell(g, gy * n + gx, gx, gy, e.x, e.y);
  }

  /** The cell at column `gx`, row `gy` is the one and only cell holding a
      position that lies in that column and row. */
  lemma LocatedCell(g: GridManager, id: int, gx: int, gy: int, x: real, y: real)
    requires WellFormed(g) && 0 < g.gridCount && 0 < GridWidth(g)
    requires 0 <= gx < g.gridCount && 0 <= gy < g.gridCount && id == gy * g.gridCount + gx
    requires var w := GridWidth(g);
      && (g.startX + gx * w) as real <= x < (g.startX + (gx + 1) * w) as real
      && (g.startY + gy * w) as real <= y < (g.startY + (gy + 1) * w) as real
    ensures id in g.grids && InCell(g, id, x, y)
    ensures forall c :: c in g.grids && InCell(g, c, x, y) ==> c == id
  {
    CellOfColumns(g, gx, gy, x, y);
    forall c | c in g.grids && InCell(g, c, x, y)
      ensures c == id
    {
      CellUnique(g, c, gx, gy, x, y);
    }
  }

  /** The cell at column `gx`, row `gy` exists and its square holds a position in that column and row. */
  lemma CellOfColumns(g: GridManager, gx: int, gy: int, x: real, y: real)
    requires WellFormed(g) && 0 < g.gridCount && 0 <= gx < g.gridCount && 0 <= gy < g.gridCount
    requires var w := GridWidth(g);
      && (g.startX + gx * w) as real <= x < (g.startX + (gx + 1) * w) as real
      && (g.startY + gy * w) as real <= y < (g.startY + (gy + 1) * w) as real
    ensures gy * g.gridCount + gx in g.grids && InCell(g, gy * g.gridCount + gx, x, y)
  {
    var n := g.gridCount;
    IdCoords(n, gx, gy);
    CellIdRange(n, gx, gy);
  }

  /** Only the cell in column `gx`, row `gy` contains a position that lies in that column and row. */
  lemma CellUnique(g: GridManager, c: int, gx: int, gy: int, x: real, y: real)
    requires WellFormed(g) && 0 < g.gridCount && 0 < GridWidth(g) && c in g.grids && InCell(g, c, x, y)
    requires var w := GridWidth(g);
      && (g.startX + gx * w) as real <= x < (g.startX + (gx + 1) * w) as real
      && (g.startY + gy * w) as real <= y < (g.startY + (gy + 1) * w) as real
    ensures c == gy * g.gridCount + gx
  {
    var n, w := g.gridCount, GridWidth(g);
    assert 0 <= c < n * n;
    CoordsOfId(n, c);
    AxisUnique(g.startX, w, c % n, gx, x);
    AxisUnique(g.startY, w, c / n, gy, y);
  }

  /** Truncation toward zero breaks the mapping for a region below the origin:
      (-0.5, -0.5) lies inside the region [-250, 0)², yet its id is 30, which is
      no cell, so adding it dereferences a missing cell and a search finds nothing. */
  lemma TruncationMisplacesNegativeRegion(g: GridManager)
    requires WellFormed(g)
    requires g.startX == -250 && g.startY == -250 && g.areaWidth == 250 && g.gridCount == 5
    ensures InRegion(g, -0.5, -0.5)
    ensures GetGIDByPos(g, Entity(-0.5, -0.5, "p")) == 30
    ensures 30 !in g.grids
    ensures Search(g, Entity(-0.5, -0.5, "p")) == multiset{}
  {
  }

  /** No bounds check: (250, 0) lies outside the region [0, 250)², yet its id is
      5, an existing cell whose square, [0, 50) × [50, 100), does not contain it. */
  lemma OutOfRegionAliases(g: GridManager)
    requires WellFormed(g)
    requires g.startX == 0 && g.startY == 0 && g.areaWidth == 250 && g.gridCount == 5
    ensures !InRegion(g, 250.0, 0.0)
    ensures GetGIDByPos(g, Entity(250.0, 0.0, "p")) == 5 && 5 in g.grids
    ensures !InCell(g, 5, 250.0, 0.0)
  {
  }

  // ----- the neighbourhood scan -----

  /** The offset table lists each of the eight non-zero unit offsets once. */
  lemma OffsetsDistinct(i: nat, j: nat)
    requires i < 8 && j < 8 && i != j
    ensures DX[i] != DX[j] || DY[i] != DY[j]
  {
  }

  lemma OffsetsNonZero(j: nat)
    requires j < 8
    ensures DX[j] != 0 || DY[j] != 0
    ensures -1 <= DX[j] <= 1 && -1 <= DY[j] <= 1
  {
  }

  /** The table position of a non-zero unit offset. */
  function OffsetOf(dx: int, dy: int): (j: nat)
    requires -1 <= dx <= 1 && -1 <= dy <= 1 && (dx != 0 || dy != 0)
    ensures j < 8 && DX[j] == dx && DY[j] == dy
  {
    if dx == -1 then (if dy == -1 then 0 else if dy == 0 then 1 else 2)
    else if dx == 0 then (if dy == -1 then 3 else 4)
    else (if dy == -1 then 5 else if dy == 0 then 6 else 7)
  }

  /** Offset `j` from an in-range column and row names the cell at those coordinates. */
  lemma IdAtCoords(n: int, x: int, y: int, j: nat)
    requires 0 < n && j < 8 && InGrid(n, x, y, j)
    ensures IdAt(n, x, y, j) % n == x + DX[j] && IdAt(n, x, y, j) / n == y + DY[j]
  {
    IdCoords(n, x + DX[j], y + DY[j]);
  }

  /** No neighbour offset lands back on the centre. */
  lemma NeighbourNotCentre(n: int, x: int, y: int, j: nat)
    requires 0 < n && 0 <= x < n && 0 <= y < n && j < 8 && InGrid(n, x, y, j)
    ensures IdAt(n, x, y, j) != y * n + x
  {
    IdAtCoords(n, x, y, j);
    IdCoords(n, x, y);
    OffsetsNonZero(j);
  }

  /** Two different offsets land on two different cells. */
  lemma NeighboursDiffer(n: int, x: int, y: int, i: nat, j: nat)
    requires 0 < n && i < 8 && j < 8 && i != j && InGrid(n, x, y, i) && InGrid(n, x, y, j)
    ensures IdAt(n, x, y, i) != IdAt(n, x, y, j)
  {
    IdAtCoords(n, x, y, i);
    IdAtCoords(n, x, y, j);
    OffsetsDistinct(i, j);
  }

  /** The scan from offset `k` lists distinct ids, none of them the centre. */
  lemma {:induction false} NeighboursDistinct(n: int, x: int, y: int, k: nat)
    requires 0 < n && 0 <= x < n && 0 <= y < n && k <= 8
    ensures forall c :: c in Neighbours(n, x, y, k) ==> c != y * n + x
    ensures Distinct(Neighbours(n, x, y, k))
    decreases 8 - k
  {
    if k < 8 {
      NeighboursDistinct(n, x, y, k + 1);
      NeighboursSpec(n, x, y, k);
      forall c | c in Neighbours(n, x, y, k)
        ensures c != y * n + x
      {
        var j :| k <= j < 8 && InGrid(n, x, y, j) && c == IdAt(n, x, y, j);
        NeighbourNotCentre(n, x, y, j);
      }
      if InGrid(n, x, y, k) {
        var rest := Neighbours(n, x, y, k + 1);
        var head := IdAt(n, x, y, k);
        NeighboursSpec(n, x, y, k + 1);
        forall c | c in rest
          ensures c != head
        {
          var j :| k + 1 <= j < 8 && InGrid(n, x, y, j) && c == IdAt(n, x, y, j);
          NeighboursDiffer(n, x, y, j, k);
        }
        DistinctCons(head, rest);
        assert Neighbours(n, x, y, k) == [head] + rest;
      } else {
        assert Neighbours(n, x, y, k) == Neighbours(n, x, y, k + 1);
      }
    }
  }

  /** No id is listed twice. */
  predicate Distinct(s: seq<int>) {
    forall i, j :: 0 <= i < j < |s| ==> s[i] != s[j]
  }

  lemma DistinctCons(a: int, s: seq<int>)
    requires a !in s && Distinct(s)
    ensures Distinct([a] + s)
  {
    var t := [a] + s;
    forall i, j | 0 <= i < j < |t|
      ensures t[i] != t[j]
    {
      if i == 0 {
        assert t[j] == s[j - 1];
      } else {
        assert t[i] == s[i - 1] && t[j] == s[j - 1];
      }
    }
  }

  /** Every scanned neighbour is a cell adjacent to the centre. */
  lemma ScannedAreAdjacent(g: GridManager, gID: int, c: int)
    requires WellFormed(g) && gID in g.grids && 0 < g.gridCount
    requires c in Neighbours(g.gridCount, Column(g.gridCount, gID), Row(g.gridCount, gID), 0)
    ensures c in g.grids && Adjacent(g.gridCount, gID, c)
  {
    var n := g.gridCount;
    CellOfId(g, gID);
    var x, y := Column(n, gID), Row(n, gID);
    NeighboursSpec(n, x, y, 0);
    var j :| 0 <= j < 8 && InGrid(n, x, y, j) && c == IdAt(n, x, y, j);
    IdAtCoords(n, x, y, j);
    OffsetsNonZero(j);
  }

  /** Every adjacent cell other than the centre is scanned. */
  lemma AdjacentAreScanned(g: GridManager, gID: int, c: int)
    requires WellFormed(g) && gID in g.grids && 0 < g.gridCount
    requires c in g.grids && Adjacent(g.gridCount, gID, c) && c != gID
    ensures c in Neighbours(g.gridCount, Column(g.gridCount, gID), Row(g.gridCount, gID), 0)
  {
    var n := g.gridCount;
    assert 0 <= gID < n * n && 0 <= c < n * n;
    QuoRemOfNatural(gID, n);
    var x, y := Column(n, gID), Row(n, gID);
    CoordsOfId(n, gID);
    CoordsOfId(n, c);
    var cx, cy := c % n, c / n;
    assert c == cy * n + cx;
    var j := OffsetOf(cx - x, cy - y);
    assert x + DX[j] == cx && y + DY[j] == cy;
    assert InGrid(n, x, y, j);
    assert IdAt(n, x, y, j) == c;
    NeighboursSpec(n, x, y, 0);
  }

  /** The scan returns the cell first, then every other cell within one column and
      one row of it, each once, and nothing else. */
  lemma SurroundIsNeighbourhood(g: GridManager, gID: int)
    requires WellFormed(g) && gID in g.grids
    ensures 0 < g.gridCount
    ensures var ids := GetSurroundGrids(g, gID);
      && ids[0] == gID
      && Distinct(ids)
      && (forall c :: c in ids <==> c in g.grids && Adjacent(g.gridCount, gID, c))
  {
    var n := g.gridCount;
    CellOfId(g, gID);
    var x, y := Column(n, gID), Row(n, gID);
    var ns := Neighbours(n, x, y, 0);
    var ids := GetSurroundGrids(g, gID);
    assert ids == [gID] + ns;
    CoordsOfId(n, gID);
    assert gID == y * n + x;
    NeighboursDistinct(n, x, y, 0);
    DistinctCons(gID, ns);
    forall c
      ensures c in ids <==> c in g.grids && Adjacent(n, gID, c)
    {
      if c in ns {
        ScannedAreAdjacent(g, gID, c);
      } else if c != gID && c in g.grids && Adjacent(n, gID, c) {
        AdjacentAreScanned(g, gID, c);
      }
    }
  }

  /** In the interior every one of the eight neighbours exists: nine cells. */
  lemma {:induction false} NeighboursAllInGrid(n: int, x: int, y: int, k: nat)
    requires 0 < x < n - 1 && 0 < y < n - 1 && k <= 8
    ensures |Neighbours(n, x, y, k)| == 8 - k
    decreases 8 - k
  {
    if k < 8 {
      OffsetsNonZero(k);
      NeighboursAllInGrid(n, x, y, k + 1);
    }
  }

  lemma InteriorHasNine(g: GridManager, gID: int)
    requires WellFormed(g) && gID in g.grids
    requires 0 < gID % g.gridCount < g.gridCount - 1 && 0 < gID / g.gridCount < g.gridCount - 1
    ensures |GetSurroundGrids(g, gID)| == 9
  {
    CellOfId(g, gID);
    NeighboursAllInGrid(g.gridCount, Column(g.gridCount, gID), Row(g.gridCount, gID), 0);
  }

  // ----- search -----

  /** A search returns exactly the entities resident in the cells within one column
      and one row of the position's cell, and nothing when the position's id is no cell. */
  lemma SearchIsNeighbourhood(g: GridManager, e: Entity)
    requires Usable(g) && WellFormed(g)
    ensures GetGIDByPos(g, e) !in g.grids ==> Search(g, e) == multiset{}
    ensures GetGIDByPos(g, e) in g.grids ==> 0 < g.gridCount && forall x :: x in Search(g, e) <==>
      exists c :: c in g.grids && Adjacent(g.gridCount, GetGIDByPos(g, e), c) && x in Residents(g.grids[c])
  {
    var id := GetGIDByPos(g, e);
    var ids := GetSurroundGrids(g, id);
    if id in g.grids {
      SurroundIsNeighbourhood(g, id);
      forall x
        ensures x in Search(g, e) <==>
          exists c :: c in g.grids && Adjacent(g.gridCount, id, c) && x in Residents(g.grids[c])
      {
        if x in Search(g, e) {
          var i :| 0 <= i < |ids| && x in g.grids[ids[i]].entities.Values;
          assert x in Residents(g.grids[ids[i]]);
        }
        if exists c :: c in g.grids && Adjacent(g.gridCount, id, c) && x in Residents(g.grids[c]) {
          var c :| c in g.grids && Adjacent(g.gridCount, id, c) && x in Residents(g.grids[c]);
          var i :| 0 <= i < |ids| && ids[i] == c;
          assert x in g.grids[ids[i]].entities.Values;
        }
      }
    }
  }

  /** A map whose values are filed under their own names has one value per name. */
  lemma {:induction false} KeyedValues(m: map<string, Entity>)
    requires forall k :: k in m ==> m[k].key == k
    ensures forall x :: x in m.Values <==> x.key in m && m[x.key] == x
    ensures |m.Values| == |m|
    decreases |m|
  {
    if |m| > 0 {
      var k :| k in m;
      var m' := m - {k};
      KeyedValues(m');
      assert m.Values == m'.Values + {m[k]};
      assert m[k] !in m'.Values;
    }
  }

  /** The residents of a cell whose entities are filed under their names: one per name. */
  lemma ResidentsByName(c: Grid)
    requires forall k :: k in c.entities ==> c.entities[k].key == k
    ensures forall x :: x in Residents(c) <==> x.key in c.entities && c.entities[x.key] == x
    ensures |Residents(c)| == |c.entities|
  {
    KeyedValues(c.entities);
  }

  /** A search from any cell within one column and one row of the cell of `e`
      (in particular from `e`'s own position) returns `e` once it is added. */
  lemma AddThenSearchFinds(g: GridManager, e: Entity, q: Entity)
    requires Usable(g) && WellFormed(g) && GetGIDByPos(g, e) in g.grids
    requires GetGIDByPos(g, q) in g.grids
    requires 0 < g.gridCount && Adjacent(g.gridCount, GetGIDByPos(g, q), GetGIDByPos(g, e))
    ensures e in Search(Add(g, e), q)
  {
    var r := Add(g, e);
    var id := GetGIDByPos(g, e);
    assert GetGIDByPos(r, q) == GetGIDByPos(g, q);
    assert e in r.grids[id].entities.Values;
    assert e in Residents(r.grids[id]);
    SearchIsNeighbourhood(r, q);
  }

  /** Two managers that differ only in what their cells hold scan the same cells. */
  lemma SameLayout(g: GridManager, r: GridManager, q: Entity)
    requires Usable(g) && WellFormed(g) && WellFormed(r)
    requires r == g.(grids := r.grids) && r.grids.Keys == g.grids.Keys
    ensures Usable(r) && GetGIDByPos(r, q) == GetGIDByPos(g, q)
    ensures GetSurroundGrids(r, GetGIDByPos(g, q)) == GetSurroundGrids(g, GetGIDByPos(g, q))
  {
  }

  /** In one cell, an add gains at most `e` and keeps every entity of another name. */
  lemma AddCell(g: GridManager, e: Entity, c: int, x: Entity)
    requires Usable(g) && KeyedByName(g) && GetGIDByPos(g, e) in g.grids && c in g.grids
    ensures x in Add(g, e).grids[c].entities.Values ==> x == e || x in g.grids[c].entities.Values
    ensures x.key != e.key && x in g.grids[c].entities.Values ==> x in Add(g, e).grids[c].entities.Values
  {
    var r := Add(g, e);
    ResidentsByName(g.grids[c]);
    if x in r.grids[c].entities.Values && x != e {
      var k :| k in r.grids[c].entities && r.grids[c].entities[k] == x;
      assert k in g.grids[c].entities;
    }
    if x.key != e.key && x in g.grids[c].entities.Values {
      assert r.grids[c].entities[x.key] == x;
    }
  }

  /** Adding `e` leaves every other name's search results as they were: a search
      gains at most `e` and loses at most the entity it replaced under `e`'s name. */
  lemma AddKeepsOtherNames(g: GridManager, e: Entity, q: Entity)
    requires Usable(g) && WellFormed(g) && KeyedByName(g) && GetGIDByPos(g, e) in g.grids
    ensures forall x: Entity :: x.key != e.key ==> (x in Search(Add(g, e), q) <==> x in Search(g, q))
    ensures forall x :: x in Search(Add(g, e), q) ==> x == e || x in Search(g, q)
  {
    var r := Add(g, e);
    SameLayout(g, r, q);
    var ids := GetSurroundGrids(g, GetGIDByPos(g, q));
    assert Search(r, q) == Gather(r, ids) && Search(g, q) == Gather(g, ids);
    forall x: Entity
      ensures x.key != e.key ==> (x in Gather(r, ids) <==> x in Gather(g, ids))
      ensures x in Gather(r, ids) ==> x == e || x in Gather(g, ids)
    {
      if x in Gather(r, ids) {
        var i :| 0 <= i < |ids| && x in r.grids[ids[i]].entities.Values;
        AddCell(g, e, ids[i], x);
      }
      if x in Gather(g, ids) && x.key != e.key {
        var i :| 0 <= i < |ids| && x in g.grids[ids[i]].entities.Values;
        AddCell(g, e, ids[i], x);
      }
    }
  }

  /** Once `e`'s name is deleted at the position of the only cell holding it, no
      search returns an entity of that name. */
  lemma DeleteThenSearchMisses(g: GridManager, e: Entity, q: Entity)
    requires Usable(g) && WellFormed(g) && KeyedByName(g) && GetGIDByPos(g, e) in g.grids
    requires forall c :: c in g.grids && c != GetGIDByPos(g, e) ==> e.key !in g.grids[c].entities
    ensures forall x :: x in Search(Delete(g, e), q) ==> x.key != e.key
  {
    var r := Delete(g, e);
    SearchIsNeighbourhood(r, q);
    forall x | x in Search(r, q)
      ensures x.key != e.key
    {
      var c :| c in r.grids && Adjacent(r.gridCount, GetGIDByPos(r, q), c) && x in Residents(r.grids[c]);
      ResidentsByName(r.grids[c]);
    }
  }

  /** In one cell, a delete loses only entities of `e`'s name. */
  lemma DeleteCell(g: GridManager, e: Entity, c: int, x: Entity)
    requires Usable(g) && KeyedByName(g) && GetGIDByPos(g, e) in g.grids && c in g.grids
    ensures x in Delete(g, e).grids[c].entities.Values ==> x in g.grids[c].entities.Values
    ensures x.key != e.key && x in g.grids[c].entities.Values ==> x in Delete(g, e).grids[c].entities.Values
  {
    var r := Delete(g, e);
    ResidentsByName(g.grids[c]);
    if x in r.grids[c].entities.Values {
      var k :| k in r.grids[c].entities && r.grids[c].entities[k] == x;
      assert k in g.grids[c].entities;
    }
    if x.key != e.key && x in g.grids[c].entities.Values {
      assert r.grids[c].entities[x.key] == x;
    }
  }

  /** Deleting removes only entities of `e`'s name from any search. */
  lemma DeleteKeepsOtherNames(g: GridManager, e: Entity, q: Entity)
    requires Usable(g) && WellFormed(g) && KeyedByName(g) && GetGIDByPos(g, e) in g.grids
    ensures forall x: Entity :: x.key != e.key ==> (x in Search(Delete(g, e), q) <==> x in Search(g, q))
    ensures forall x :: x in Search(Delete(g, e), q) ==> x in Search(g, q)
  {
    var r := Delete(g, e);
    SameLayout(g, r, q);
    var ids := GetSurroundGrids(g, GetGIDByPos(g, q));
    assert Search(r, q) == Gather(r, ids) && Search(g, q) == Gather(g, ids);
    forall x: Entity
      ensures x.key != e.key ==> (x in Gather(r, ids) <==> x in Gather(g, ids))
      ensures x in Gather(r, ids) ==> x in Gather(g, ids)
    {
      if x in Gather(r, ids) {
        var i :| 0 <= i < |ids| && x in r.grids[ids[i]].entities.Values;
        DeleteCell(g, e, ids[i], x);
      }
      if x in Gather(g, ids) && x.key != e.key {
        var i :| 0 <= i < |ids| && x in g.grids[ids[i]].entities.Values;
        DeleteCell(g, e, ids[i], x);
      }
    }
  }

  // ----- multiplicity -----

  /** Every filed entity sits in the cell its own position falls in, as `Add` files it. */
  ghost predicate InOwnCell(g: GridManager) {
    && Usable(g)
    && forall id, k :: id in g.grids && k in g.grids[id].entities ==>
         GetGIDByPos(g, g.grids[id].entities[k]) == id
  }

  /** A manager with nothing filed has every entity in its own cell. */
  lemma EmptyInOwnCell(g: GridManager)
    requires Usable(g) && Empty(g)
    ensures InOwnCell(g)
  {
  }

  /** An add files its entity in the cell of its position and leaves the others
      where they were, so every entity stays in its own cell. */
  lemma AddInOwnCell(g: GridManager, e: Entity)
    requires InOwnCell(g) && GetGIDByPos(g, e) in g.grids
    ensures InOwnCell(Add(g, e))
  {
    var r := Add(g, e);
    assert forall x :: GetGIDByPos(r, x) == GetGIDByPos(g, x);
  }

  /** A delete only removes, so every entity stays in its own cell. */
  lemma DeleteInOwnCell(g: GridManager, e: Entity)
    requires InOwnCell(g) && GetGIDByPos(g, e) in g.grids
    ensures InOwnCell(Delete(g, e))
  {
    var r := Delete(g, e);
    assert forall x :: GetGIDByPos(r, x) == GetGIDByPos(g, x);
  }

  /** Gathering distinct cells of a manager whose entities sit in their own cells
      lists every entity at most once. */
  lemma {:induction false} GatherOnce(g: GridManager, ids: seq<int>, x: Entity)
    requires InOwnCell(g) && Distinct(ids)
    requires forall i :: 0 <= i < |ids| ==> ids[i] in g.grids
    ensures Gather(g, ids)[x] <= 1
    decreases |ids|
  {
    if |ids| > 0 {
      var rest := ids[1..];
      assert forall i :: 0 <= i < |rest| ==> rest[i] == ids[i + 1];
      GatherOnce(g, rest, x);
      if x in Residents(g.grids[ids[0]]) {
        OwnCellOf(g, ids[0], x);
        forall i | 0 <= i < |rest|
          ensures x in g.grids[rest[i]].entities.Values ==> GetGIDByPos(g, x) == rest[i]
        {
          OwnCellOf(g, rest[i], x);
        }
      }
    }
  }

  /** An entity filed in a cell of such a manager falls in that cell. */
  lemma OwnCellOf(g: GridManager, c: int, x: Entity)
    requires InOwnCell(g) && c in g.grids
    ensures x in g.grids[c].entities.Values ==> GetGIDByPos(g, x) == c
  {
    if x in g.grids[c].entities.Values {
      var k :| k in g.grids[c].entities && g.grids[c].entities[k] == x;
    }
  }

  /** When every entity sits in its own cell under its own name, a search returns
      each entity at most once. Under the names, each cell's residents are one per
      filed entry (`ResidentsByName`), so the bound counts the program's entries. */
  lemma SearchListsOnce(g: GridManager, q: Entity, x: Entity)
    requires InOwnCell(g) && WellFormed(g) && KeyedByName(g)
    ensures Search(g, q)[x] <= 1
  {
    var id := GetGIDByPos(g, q);
    if id in g.grids {
      SurroundIsNeighbourhood(g, id);
      GatherOnce(g, GetSurroundGrids(g, id), x);
    }
  }

  /** Two multisets that hold nothing twice are equal when they hold the same elements. */
  lemma SameOnce<T>(a: multiset<T>, b: multiset<T>)
    requires forall x :: a[x] <= 1 && b[x] <= 1
    requires forall x :: x in a <==> x in b
    ensures a == b
  {
    forall x
      ensures a[x] == b[x]
    {
      if x in a {
        assert x in b;
      }
    }
  }
}

=== FILE: grid_scenarios.dfy ===
/**
 * The grid test tables, on the 5 × 5 grid of 50-wide cells covering
 * [0, 250)². Cell ids, row by row:
 *
 *          0   50  100  150  200
 *     0  |  0   1    2    3    4
 *     50 |  5   6    7    8    9
 *     100| 10  11   12   13   14
 *     150| 15  16   17   18   19
 *     200| 20  21   22   23   24
 */
module GridScenarios {
  import opened Aoi
  import opened GoArith
  import opened UniformGrid
  import opened GridProofs

  /** The layout of the tests' manager: 5 × 5 cells of side 50 from the origin. */
  ghost predicate Layout5x5(g: GridManager) {
    && g.startX == 0 && g.startY == 0 && g.areaWidth == 250 && g.gridCount == 5
    && WellFormed(g)
  }

  /** The tests' manager, as the constructor builds it and adds keep it. */
  ghost predicate Test5x5(g: GridManager) {
    Layout5x5(g) && KeyedByName(g)
  }

  function At(x: real, y: real): Entity {
    Entity(x, y, "")
  }

  /** The ids around cell `id`, at column `col`, row `row`. */
  lemma Around(g: GridManager, id: int, col: int, row: int, ns: seq<int>)
    requires Layout5x5(g) && 0 <= col < 5 && 0 <= row < 5 && id == row * 5 + col
    requires Neighbours(5, col, row, 0) == ns
    ensures GetSurroundGrids(g, id) == [id] + ns
  {
    assert id in g.grids;
    CellCoords(col, row);
    assert Column(g.gridCount, id) == col && Row(g.gridCount, id) == row;
  }

  /** Column and row are recovered from the id of a cell of the 5-wide grid. */
  lemma CellCoords(col: int, row: int)
    requires 0 <= col < 5 && 0 <= row
    ensures Quo(row * 5 + col, 5) == row && Rem(row * 5 + col, 5) == col
  {
    QuoRemOfNatural(row * 5 + col, 5);
  }

  /** A whole-number position with non-negative coordinates lies in the cell of
      the 50-wide column and row that hold it. */
  lemma GidAt(g: GridManager, x: int, y: int, col: int, row: int)
    requires Layout5x5(g) && 0 <= col && 0 <= row
    requires 50 * col <= x < 50 * col + 50 && 50 * row <= y < 50 * row + 50
    ensures GetGIDByPos(g, At(x as real, y as real)) == row * 5 + col
  {
    assert GridWidth(g) == 50;
    assert Trunc(x as real) == x && Trunc(y as real) == y;
    QuoRemOfNatural(x, 50);
    QuoRemOfNatural(y, 50);
  }

  /* The surround table: the test sorts the ids before comparing, the scan
     lists the centre first and then the offsets in their fixed order. */

  lemma ScanOrigin(col: int, row: int)
    requires col == 0 && row == 0
    ensures Neighbours(5, col, row, 0) == [5, 1, 6]
    ensures [row * 5 + col] + Neighbours(5, col, row, 0) == [0, 5, 1, 6]
  {
    assert Neighbours(5, 0, 0, 7) == [6];
    assert Neighbours(5, 0, 0, 6) == [1, 6];
    assert Neighbours(5, 0, 0, 5) == [1, 6];
    assert Neighbours(5, 0, 0, 4) == [5, 1, 6];
    assert Neighbours(5, 0, 0, 3) == [5, 1, 6];
    assert Neighbours(5, 0, 0, 2) == [5, 1, 6];
    assert Neighbours(5, 0, 0, 1) == [5, 1, 6];
    assert Neighbours(5, 0, 0, 0) == [5, 1, 6];
  }

  lemma ScanTopEdge(col: int, row: int)
    requires col == 3 && row == 0
    ensures Neighbours(5, col, row, 0) == [2, 7, 8, 4, 9]
    ensures [row * 5 + col] + Neighbours(5, col, row, 0) == [3, 2, 7, 8, 4, 9]
  {
    assert Neighbours(5, 3, 0, 7) == [9];
    assert Neighbours(5, 3, 0, 6) == [4, 9];
    assert Neighbours(5, 3, 0, 5) == [4, 9];
    assert Neighbours(5, 3, 0, 4) == [8, 4, 9];
    assert Neighbours(5, 3, 0, 3) == [8, 4, 9];
    assert Neighbours(5, 3, 0, 2) == [7, 8, 4, 9];
    assert Neighbours(5, 3, 0, 1) == [2, 7, 8, 4, 9];
    assert Neighbours(5, 3, 0, 0) == [2, 7, 8, 4, 9];
  }

  lemma ScanInterior(col: int, row: int)
    requires col == 1 && row == 1
    ensures Neighbours(5, col, row, 0) == [0, 5, 10, 1, 11, 2, 7, 12]
    ensures [row * 5 + col] + Neighbours(5, col, row, 0) == [6, 0, 5, 10, 1, 11, 2, 7, 12]
  {
    assert Neighbours(5, 1, 1, 7) == [12];
    assert Neighbours(5, 1, 1, 6) == [7, 12];
    assert Neighbours(5, 1, 1, 5) == [2, 7, 12];
    assert Neighbours(5, 1, 1, 4) == [11, 2, 7, 12];
    assert Neighbours(5, 1, 1, 3) == [1, 11, 2, 7, 12];
    assert Neighbours(5, 1, 1, 2) == [10, 1, 11, 2, 7, 12];
    assert Neighbours(5, 1, 1, 1) == [5, 10, 1, 11, 2, 7, 12];
    assert Neighbours(5, 1, 1, 0) == [0, 5, 10, 1, 11, 2, 7, 12];
  }

  lemma ScanRightEdge(col: int, row: int)
    requires col == 4 && row == 2
    ensures Neighbours(5, col, row, 0) == [8, 13, 18, 9, 19]
    ensures [row * 5 + col] + Neighbours(5, col, row, 0) == [14, 8, 13, 18, 9, 19]
  {
    assert Neighbours(5, 4, 2, 7) == [];
    assert Neighbours(5, 4, 2, 6) == [];
    assert Neighbours(5, 4, 2, 5) == [];
    assert Neighbours(5, 4, 2, 4) == [19];
    assert Neighbours(5, 4, 2, 3) == [9, 19];
    assert Neighbours(5, 4, 2, 2) == [18, 9, 19];
    assert Neighbours(5, 4, 2, 1) == [13, 18, 9, 19];
    assert Neighbours(5, 4, 2, 0) == [8, 13, 18, 9, 19];
  }

  lemma ScanCorner(col: int, row: int)
    requires col == 4 && row == 4
    ensures Neighbours(5, col, row, 0) == [18, 23, 19]
    ensures [row * 5 + col] + Neighbours(5, col, row, 0) == [24, 18, 23, 19]
  {
    assert Neighbours(5, 4, 4, 7) == [];
    assert Neighbours(5, 4, 4, 6) == [];
    assert Neighbours(5, 4, 4, 5) == [];
    assert Neighbours(5, 4, 4, 4) == [];
    assert Neighbours(5, 4, 4, 3) == [19];
    assert Neighbours(5, 4, 4, 2) == [19];
    assert Neighbours(5, 4, 4, 1) == [23, 19];
    assert Neighbours(5, 4, 4, 0) == [18, 23, 19];
  }

  lemma SurroundOfOrigin(g: GridManager)
    requires Layout5x5(g)
    ensures GetSurroundGrids(g, GetGIDByPos(g, At(0.0, 0.0))) == [0, 5, 1, 6]
  {
    var col, row := 0, 0;
    var id := row * 5 + col;
    ScanOrigin(col, row);
    GidAt(g, 0, 0, col, row);
    Around(g, id, col, row, Neighbours(5, col, row, 0));
  }

  lemma SurroundOfTopEdge(g: GridManager)
    requires Layout5x5(g)
    ensures GetSurroundGrids(g, GetGIDByPos(g, At(150.0, 0.0))) == [3, 2, 7, 8, 4, 9]
  {
    var col, row := 3, 0;
    var id := row * 5 + col;
    ScanTopEdge(col, row);
    GidAt(g, 150, 0, col, row);
    Around(g, id, col, row, Neighbours(5, col, row, 0));
  }

  lemma SurroundOfInterior(g: GridManager)
    requires Layout5x5(g)
    ensures GetSurroundGrids(g, GetGIDByPos(g, At(50.0, 50.0))) == [6, 0, 5, 10, 1, 11, 2, 7, 12]
  {
    var col, row := 1, 1;
    var id := row * 5 + col;
    ScanInterior(col, row);
    GidAt(g, 50, 50, col, row);
    Around(g, id, col, row, Neighbours(5, col, row, 0));
  }

  lemma SurroundOfRightEdge(g: GridManager)
    requires Layout5x5(g)
    ensures GetSurroundGrids(g, GetGIDByPos(g, At(200.0, 100.0))) == [14, 8, 13, 18, 9, 19]
  {
    var col, row := 4, 2;
    var id := row * 5 + col;
    ScanRightEdge(col, row);
    GidAt(g, 200, 100, col, row);
    Around(g, id, col, row, Neighbours(5, col, row, 0));
  }

  lemma SurroundOfCorner(g: GridManager)
    requires Layout5x5(g)
    ensures GetSurroundGrids(g, GetGIDByPos(g, At(200.0, 200.0))) == [24, 18, 23, 19]
  {
    var col, row := 4, 4;
    var id := row * 5 + col;
    ScanCorner(col, row);
    GidAt(g, 200, 200, col, row);
    Around(g, id, col, row, Neighbours(5, col, row, 0));
  }

  /** Adds the entities one after another, as the test's loop does. */
  function AddAll(g: GridManager, es: seq<Entity>): (r: GridManager)
    requires Usable(g) && WellFormed(g)
    requires forall i :: 0 <= i < |es| ==> GetGIDByPos(g, es[i]) in g.grids
    ensures r == g.(grids := r.grids) && r.grids.Keys == g.grids.Keys && WellFormed(r)
    ensures KeyedByName(g) ==> KeyedByName(r)
    decreases |es|
  {
    if es == [] then g
    else
      var g1 := Add(g, es[0]);
      SamePlacement(g, g1);
      AddAll(g1, es[1..])
  }

  /** Managers that differ only in what their cells hold place every position alike. */
  lemma SamePlacement(g: GridManager, r: GridManager)
    requires Usable(g) && r == g.(grids := r.grids)
    ensures Usable(r) && forall e :: GetGIDByPos(r, e) == GetGIDByPos(g, e)
  {
  }

  /** No two of the entities share a name. */
  predicate DistinctNames(es: seq<Entity>) {
    forall i, j :: 0 <= i < j < |es| ==> es[i].key != es[j].key
  }

  /** None of the entities is named `k`. */
  predicate NameAbsent(es: seq<Entity>, k: string) {
    forall i :: 0 <= i < |es| ==> es[i].key != k
  }

  /** A run of adds is its first add followed by the run of the rest. */
  lemma AddAllStep(g: GridManager, es: seq<Entity>)
    requires Usable(g) && WellFormed(g) && es != []
    requires forall i :: 0 <= i < |es| ==> GetGIDByPos(g, es[i]) in g.grids
    ensures var g1 := Add(g, es[0]);
      && Usable(g1) && WellFormed(g1) && (KeyedByName(g) ==> KeyedByName(g1))
      && (forall i :: 0 <= i < |es[1..]| ==> GetGIDByPos(g1, es[1..][i]) in g1.grids)
      && AddAll(g, es) == AddAll(g1, es[1..])
  {
    var g1 := Add(g, es[0]);
    var rest := es[1..];
    SamePlacement(g, g1);
    assert forall i :: 0 <= i < |rest| ==> GetGIDByPos(g1, rest[i]) == GetGIDByPos(g, es[i + 1]);
  }

  /** A name absent from a run is absent from its tail, and differs from its head. */
  lemma NameAbsentTail(es: seq<Entity>, k: string)
    requires es != [] && NameAbsent(es, k)
    ensures NameAbsent(es[1..], k) && es[0].key != k
  {
    assert forall i :: 0 <= i < |es[1..]| ==> es[1..][i] == es[i + 1];
  }

  /** A run of adds leaves the search results for every name it does not add alone. */
  lemma {:induction false} AddAllKeepsOthers(g: GridManager, es: seq<Entity>, q: Entity)
    requires Usable(g) && WellFormed(g) && KeyedByName(g)
    requires forall i :: 0 <= i < |es| ==> GetGIDByPos(g, es[i]) in g.grids
    ensures forall x: Entity :: NameAbsent(es, x.key) ==>
      (x in Search(AddAll(g, es), q) <==> x in Search(g, q))
    decreases |es|
  {
    if es != [] {
      var g1 := Add(g, es[0]);
      AddAllStep(g, es);
      AddKeepsOtherNames(g, es[0], q);
      AddAllKeepsOthers(g1, es[1..], q);
      forall x: Entity | NameAbsent(es, x.key)
        ensures x in Search(AddAll(g, es), q) <==> x in Search(g, q)
      {
        NameAbsentTail(es, x.key);
      }
    }
  }

  /** A run of adds contributes nothing to a search but the added entities. */
  lemma {:induction false} AddAllOnlyAdds(g: GridManager, es: seq<Entity>, q: Entity)
    requires Usable(g) && WellFormed(g) && KeyedByName(g)
    requires forall i :: 0 <= i < |es| ==> GetGIDByPos(g, es[i]) in g.grids
    ensures forall x :: x in Search(AddAll(g, es), q) ==> x in es || x in Search(g, q)
    decreases |es|
  {
    if es != [] {
      var g1 := Add(g, es[0]);
      var rest := es[1..];
      AddAllStep(g, es);
      AddKeepsOtherNames(g, es[0], q);
      AddAllOnlyAdds(g1, rest, q);
      forall x: Entity | x in Search(AddAll(g, es), q)
        ensures x in es || x in Search(g, q)
      {
        if x !in rest {
          assert x in Search(g1, q);
        }
      }
    }
  }

  /** Entities of distinct names, each added in a cell around the cell of `q`,
      are all returned by a search at `q`. */
  lemma {:induction false} AddAllFinds(g: GridManager, es: seq<Entity>, q: Entity)
    requires Usable(g) && WellFormed(g) && KeyedByName(g) && DistinctNames(es)
    requires forall i :: 0 <= i < |es| ==> GetGIDByPos(g, es[i]) in g.grids
    requires GetGIDByPos(g, q) in g.grids && 0 < g.gridCount
    requires forall i :: 0 <= i < |es| ==> Adjacent(g.gridCount, GetGIDByPos(g, q), GetGIDByPos(g, es[i]))
    ensures forall i :: 0 <= i < |es| ==> es[i] in Search(AddAll(g, es), q)
    decreases |es|
  {
    if es != [] {
      var g1 := Add(g, es[0]);
      var rest := es[1..];
      AddAllStep(g, es);
      AroundTail(g, es, q);
      DistinctTail(es);
      AddAllFinds(g1, rest, q);
      AddThenSearchFinds(g, es[0], q);
      FoundStays(g1, es[0], rest, q);
      forall i | 0 <= i < |es|
        ensures es[i] in Search(AddAll(g, es), q)
      {
        if i > 0 {
          assert es[i] == rest[i - 1];
        }
      }
    }
  }

  /** The tail of a run of distinct names has distinct names, none of them the head's. */
  lemma DistinctTail(es: seq<Entity>)
    requires es != [] && DistinctNames(es)
    ensures DistinctNames(es[1..]) && NameAbsent(es[1..], es[0].key)
  {
    assert forall i :: 0 <= i < |es[1..]| ==> es[1..][i] == es[i + 1];
  }

  /** After the first add, the rest of a run still falls around the cell of `q`. */
  lemma AroundTail(g: GridManager, es: seq<Entity>, q: Entity)
    requires Usable(g) && es != [] && GetGIDByPos(g, es[0]) in g.grids && 0 < g.gridCount
    requires forall i :: 0 <= i < |es| ==> Adjacent(g.gridCount, GetGIDByPos(g, q), GetGIDByPos(g, es[i]))
    ensures var g1 := Add(g, es[0]);
      && Usable(g1) && GetGIDByPos(g1, q) == GetGIDByPos(g, q) && g1.gridCount == g.gridCount
      && forall i :: 0 <= i < |es[1..]| ==> Adjacent(g1.gridCount, GetGIDByPos(g1, q), GetGIDByPos(g1, es[1..][i]))
  {
    var g1 := Add(g, es[0]);
    SamePlacement(g, g1);
    assert forall i :: 0 <= i < |es[1..]| ==> es[1..][i] == es[i + 1];
  }

  /** One add files a name in a cell only if it was there or is the added name in the added cell. */
  lemma AddFilesOne(g: GridManager, e: Entity, c: int, k: string)
    requires Usable(g) && GetGIDByPos(g, e) in g.grids && c in g.grids
    requires k in Add(g, e).grids[c].entities
    ensures k in g.grids[c].entities || (e.key == k && GetGIDByPos(g, e) == c)
  {
  }

  /** An entity a search finds is still found after adding others of different names. */
  lemma FoundStays(g: GridManager, e: Entity, es: seq<Entity>, q: Entity)
    requires Usable(g) && WellFormed(g) && KeyedByName(g)
    requires forall i :: 0 <= i < |es| ==> GetGIDByPos(g, es[i]) in g.grids
    requires NameAbsent(es, e.key) && e in Search(g, q)
    ensures e in Search(AddAll(g, es), q)
  {
    AddAllKeepsOthers(g, es, q);
  }

  /** After a run of adds, a name is filed in a cell only if it was there
      before or one of the added entities of that name falls in that cell. */
  lemma {:induction false} AddAllFiles(g: GridManager, es: seq<Entity>)
    requires Usable(g) && WellFormed(g)
    requires forall i :: 0 <= i < |es| ==> GetGIDByPos(g, es[i]) in g.grids
    ensures forall c, k :: c in g.grids && k in AddAll(g, es).grids[c].entities ==>
      k in g.grids[c].entities || exists i :: 0 <= i < |es| && es[i].key == k && GetGIDByPos(g, es[i]) == c
    decreases |es|
  {
    if es != [] {
      var g1 := Add(g, es[0]);
      var rest := es[1..];
      AddAllStep(g, es);
      SamePlacement(g, g1);
      AddAllFiles(g1, rest);
      forall c, k | c in g.grids && k in AddAll(g, es).grids[c].entities
        ensures k in g.grids[c].entities || exists i :: 0 <= i < |es| && es[i].key == k && GetGIDByPos(g, es[i]) == c
      {
        if k !in g1.grids[c].entities {
          var i :| 0 <= i < |rest| && rest[i].key == k && GetGIDByPos(g1, rest[i]) == c;
          assert es[i + 1] == rest[i];
        } else {
          AddFilesOne(g, es[0], c, k);
        }
      }
    }
  }

  /** A run of adds keeps every entity in the cell its position falls in. */
  lemma {:induction false} AddAllInOwnCell(g: GridManager, es: seq<Entity>)
    requires InOwnCell(g) && WellFormed(g)
    requires forall i :: 0 <= i < |es| ==> GetGIDByPos(g, es[i]) in g.grids
    ensures InOwnCell(AddAll(g, es))
    decreases |es|
  {
    if es != [] {
      AddAllStep(g, es);
      AddInOwnCell(g, es[0]);
      AddAllInOwnCell(Add(g, es[0]), es[1..]);
    }
  }

  /** Entities of distinct names are listed at most once each. */
  lemma {:induction false} DistinctNamesOnce(es: seq<Entity>, x: Entity)
    requires DistinctNames(es)
    ensures multiset(es)[x] <= 1
    decreases |es|
  {
    if es != [] {
      DistinctTail(es);
      DistinctNamesOnce(es[1..], x);
      assert es == [es[0]] + es[1..];
      if x == es[0] {
        assert x !in es[1..];
      }
    }
  }

  /** The nine entities of the test, all within one cell of (50, 50). */
  function Nine(): seq<Entity> {
    [ Entity(0.0, 0.0, "a"), Entity(50.0, 0.0, "b"), Entity(100.0, 0.0, "c"),
      Entity(50.0, 0.0, "d"), Entity(50.0, 50.0, "e"), Entity(50.0, 100.0, "f"),
      Entity(100.0, 0.0, "g"), Entity(100.0, 50.0, "h"), Entity(100.0, 100.0, "i") ]
  }

  /** The nine names differ. */
  lemma NineDistinct()
    ensures DistinctNames(Nine())
  {
    var ks := ["a", "b", "c", "d", "e", "f", "g", "h", "i"];
    assert forall i :: 0 <= i < 9 ==> Nine()[i].key == ks[i] && |ks[i]| == 1;
    forall i, j | 0 <= i < j < 9
      ensures Nine()[i].key != Nine()[j].key
    {
      assert ks[i][0] != ks[j][0];
    }
  }

  /** The cells the nine fall in. */
  lemma NineCells(g: GridManager)
    requires Test5x5(g)
    ensures forall i :: 0 <= i < 9 ==> GetGIDByPos(g, Nine()[i]) == [0, 1, 2, 1, 6, 11, 2, 7, 12][i]
  {
    assert GetGIDByPos(g, Entity(0.0, 0.0, "a")) == 0;
    assert GetGIDByPos(g, Entity(50.0, 0.0, "b")) == 1;
    assert GetGIDByPos(g, Entity(100.0, 0.0, "c")) == 2;
    assert GetGIDByPos(g, Entity(50.0, 0.0, "d")) == 1;
    assert GetGIDByPos(g, Entity(50.0, 50.0, "e")) == 6;
    assert GetGIDByPos(g, Entity(50.0, 100.0, "f")) == 11;
    assert GetGIDByPos(g, Entity(100.0, 0.0, "g")) == 2;
    assert GetGIDByPos(g, Entity(100.0, 50.0, "h")) == 7;
    assert GetGIDByPos(g, Entity(100.0, 100.0, "i")) == 12;
  }

  /** A manager with nothing filed finds nothing. */
  lemma EmptyFindsNothing(g: GridManager, q: Entity)
    requires Usable(g) && WellFormed(g) && Empty(g)
    ensures Search(g, q) == multiset{}
  {
    SearchIsNeighbourhood(g, q);
  }

  /** From an empty manager, a run of adds of distinct names around the cell of
      `q` makes a search at `q` return exactly the added entities. */
  lemma AddAllExactly(g: GridManager, es: seq<Entity>, q: Entity)
    requires Usable(g) && WellFormed(g) && KeyedByName(g) && Empty(g) && DistinctNames(es)
    requires forall i :: 0 <= i < |es| ==> GetGIDByPos(g, es[i]) in g.grids
    requires GetGIDByPos(g, q) in g.grids && 0 < g.gridCount
    requires forall i :: 0 <= i < |es| ==> Adjacent(g.gridCount, GetGIDByPos(g, q), GetGIDByPos(g, es[i]))
    ensures forall x :: x in Search(AddAll(g, es), q) <==> x in es
    ensures Search(AddAll(g, es), q) == multiset(es)
  {
    EmptyFindsNothing(g, q);
    AddAllFinds(g, es, q);
    AddAllOnlyAdds(g, es, q);
    var r := AddAll(g, es);
    EmptyInOwnCell(g);
    AddAllInOwnCell(g, es);
    forall x
      ensures Search(r, q)[x] <= 1 && multiset(es)[x] <= 1
    {
      SearchListsOnce(r, q, x);
      DistinctNamesOnce(es, x);
    }
    SameOnce(Search(r, q), multiset(es));
  }

  /** From an empty manager, a name added once is filed only in the cell its entity falls in. */
  lemma AddAllSoleHolder(g: GridManager, es: seq<Entity>, j: int)
    requires Usable(g) && WellFormed(g) && Empty(g)
    requires forall i :: 0 <= i < |es| ==> GetGIDByPos(g, es[i]) in g.grids
    requires 0 <= j < |es| && forall i :: 0 <= i < |es| && i != j ==> es[i].key != es[j].key
    ensures forall c :: c in AddAll(g, es).grids && c != GetGIDByPos(g, es[j]) ==>
      es[j].key !in AddAll(g, es).grids[c].entities
  {
    AddAllFiles(g, es);
  }

  /** From an empty manager, deleting one of the added entities at its own position
      leaves a search at `q` returning exactly the others. */
  lemma AddAllThenDelete(g: GridManager, es: seq<Entity>, j: int, q: Entity)
    requires Usable(g) && WellFormed(g) && KeyedByName(g) && Empty(g) && DistinctNames(es)
    requires forall i :: 0 <= i < |es| ==> GetGIDByPos(g, es[i]) in g.grids
    requires GetGIDByPos(g, q) in g.grids && 0 < g.gridCount
    requires forall i :: 0 <= i < |es| ==> Adjacent(g.gridCount, GetGIDByPos(g, q), GetGIDByPos(g, es[i]))
    requires 0 <= j < |es|
    ensures GetGIDByPos(AddAll(g, es), es[j]) in AddAll(g, es).grids
    ensures forall x :: x in Search(Delete(AddAll(g, es), es[j]), q) <==> x in es && x.key != es[j].key
    ensures Search(Delete(AddAll(g, es), es[j]), q) == multiset(es) - multiset{es[j]}
  {
    var r := AddAll(g, es);
    SamePlacement(g, r);
    AddAllExactly(g, es, q);
    AddAllSoleHolder(g, es, j);
    DeleteThenSearchMisses(r, es[j], q);
    DeleteKeepsOtherNames(r, es[j], q);
    var d := Delete(r, es[j]);
    EmptyInOwnCell(g);
    AddAllInOwnCell(g, es);
    DeleteInOwnCell(r, es[j]);
    forall x
      ensures Search(d, q)[x] <= 1
    {
      SearchListsOnce(d, q, x);
    }
    AllButOne(Search(d, q), es, j);
  }

  /** A multiset holding nothing twice, whose elements are those of a run of
      distinct names except the name of `es[j]`, is the run without `es[j]`. */
  lemma AllButOne(m: multiset<Entity>, es: seq<Entity>, j: int)
    requires DistinctNames(es) && 0 <= j < |es|
    requires forall x :: m[x] <= 1
    requires forall x :: x in m <==> x in es && x.key != es[j].key
    ensures m == multiset(es) - multiset{es[j]}
  {
    var rest := multiset(es) - multiset{es[j]};
    forall x
      ensures rest[x] <= 1
      ensures x in rest <==> x in es && x.key != es[j].key
    {
      DistinctNamesOnce(es, x);
      if x in es {
        var i :| 0 <= i < |es| && es[i] == x;
        assert x.key == es[j].key <==> i == j;
      }
    }
    SameOnce(m, rest);
  }

  /** The nine fall in cells of the manager, all around the cell (6) of (50, 50). */
  lemma NinePlaced(g: GridManager)
    requires Test5x5(g)
    ensures GetGIDByPos(g, At(50.0, 50.0)) == 6 && 6 in g.grids
    ensures forall i :: 0 <= i < |Nine()| ==> GetGIDByPos(g, Nine()[i]) in g.grids
    ensures forall i :: 0 <= i < |Nine()| ==> Adjacent(g.gridCount, 6, GetGIDByPos(g, Nine()[i]))
  {
    NineCells(g);
    var cells := [0, 1, 2, 1, 6, 11, 2, 7, 12];
    assert forall i :: 0 <= i < 9 ==> 0 <= cells[i] < 25 && Adjacent(5, 6, cells[i]);
  }

  /** The test's nine entities filed into a fresh 5 × 5 manager. */
  ghost function Filled(g: GridManager): (r: GridManager)
    requires Test5x5(g)
    ensures Usable(r) && WellFormed(r) && KeyedByName(r) && r == g.(grids := r.grids)
  {
    NinePlaced(g);
    AddAll(g, Nine())
  }

  /** After the nine adds, the search at (50, 50) returns exactly the nine. */
  lemma SearchScenarioFull(g: GridManager)
    requires Test5x5(g) && Empty(g)
    ensures forall x :: x in Search(Filled(g), At(50.0, 50.0)) <==> x in Nine()
    ensures Search(Filled(g), At(50.0, 50.0)) == multiset(Nine())
  {
    NinePlaced(g);
    NineDistinct();
    AddAllExactly(g, Nine(), At(50.0, 50.0));
  }

  /** Deleting "i" at its own position leaves the other eight. */
  lemma SearchScenarioAfterDelete(g: GridManager)
    requires Test5x5(g) && Empty(g)
    ensures var r := Filled(g);
      && GetGIDByPos(r, Entity(100.0, 100.0, "i")) in r.grids
      && (forall x :: x in Search(Delete(r, Entity(100.0, 100.0, "i")), At(50.0, 50.0)) <==> x in Nine() && x.key != "i")
      && Search(Delete(r, Entity(100.0, 100.0, "i")), At(50.0, 50.0)) == multiset(Nine()[..8])
  {
    NinePlaced(g);
    NineDistinct();
    var es := Nine();
    assert es[8] == Entity(100.0, 100.0, "i");
    AddAllThenDelete(g, es, 8, At(50.0, 50.0));
    DropLast(es);
  }

  /** Taking the last element out of a sequence's multiset leaves the multiset of the rest. */
  lemma DropLast<T>(s: seq<T>)
    requires s != []
    ensures multiset(s) - multiset{s[|s| - 1]} == multiset(s[..|s| - 1])
  {
    assert s == s[..|s| - 1] + [s[|s| - 1]];
  }
}

=== FILE: quadtree.dfy ===
/**
 * The adaptive quadtree index. Every node covers a square; a leaf holds the
 * entities filed in it by name, an inner node has four children that cut its
 * square into quarters. A leaf about to overflow its capacity is cut when
 * depth allows, and an add or delete descends to the leaf whose quarter
 * holds the position. A search collects the names of the leaves whose
 * squares meet the window of side `2 * radius` around the query point.
 *
 * The tree is immutable here: every operation returns the new node.
 */
module QuadTree {
  import opened Aoi

  /** Child indices, in the order the children are kept and scanned. */
  const LeftUp: int := 0
  const RightUp: int := 1
  const LeftDown: int := 2
  const RightDown: int := 3

  /** The parameters a new tree is given. */
  const DefaultMaxCap: int := 500
  const DefaultMaxDeep: int := 4
  const DefaultRadius: real := 16.0

  /** Leaf capacity, deepest level, and the half-side of the search window. */
  datatype Config = Config(maxCap: int, maxDeep: int, radius: real)

  /** A square: its top-left corner and its side. */
  datatype Box = Box(xStart: real, yStart: real, width: real)

  datatype Node =
    | Leaf(box: Box, deep: int, entities: map<string, Entity>)
    | Inner(box: Box, deep: int, leftUp: Node, rightUp: Node, leftDown: Node, rightDown: Node)

  /** The tree: its parameters (shared by every node) and its root. */
  datatype Tree = Tree(cfg: Config, root: Node)

  /** The square is half-open: it holds its top and left edges, not its bottom and right ones. */
  predicate Intersects(b: Box, x: real, y: real) {
    b.xStart <= x < b.xStart + b.width && b.yStart <= y < b.yStart + b.width
  }

  function Child(n: Node, q: int): (c: Node)
    requires n.Inner? && 0 <= q < 4
    ensures c < n
  {
    if q == LeftUp then n.leftUp
    else if q == RightUp then n.rightUp
    else if q == LeftDown then n.leftDown
    else n.rightDown
  }

  /** `n` with child `q` replaced by `c`. */
  function WithChild(n: Node, q: int, c: Node): (r: Node)
    requires n.Inner? && 0 <= q < 4
    ensures r.Inner? && r.box == n.box && r.deep == n.deep
    ensures Child(r, q) == c
    ensures forall p :: 0 <= p < 4 && p != q ==> Child(r, p) == Child(n, p)
  {
    if q == LeftUp then n.(leftUp := c)
    else if q == RightUp then n.(rightUp := c)
    else if q == LeftDown then n.(leftDown := c)
    else n.(rightDown := c)
  }

  /** The square of child `q`, as a cut lays the four out: right children start half
      a side further right, lower children half a side further down. */
  function Quadrant(b: Box, q: int): Box
    requires 0 <= q < 4
  {
    var half := b.width / 2.0;
    Box(if q == RightUp || q == RightDown then b.xStart + half else b.xStart,
        if q == LeftDown || q == RightDown then b.yStart + half else b.yStart,
        half)
  }

  /** An empty leaf one level below `parent`, half its side, at the given corner. */
  function NewSonNode(xStart: real, yStart: real, parent: Node): (r: Node)
    ensures r.Leaf? && r.entities == map[]
    ensures r.deep == parent.deep + 1 && r.box.width * 2.0 == parent.box.width
  {
    Leaf(Box(xStart, yStart, parent.box.width / 2.0), parent.deep + 1, map[])
  }

  /** An empty leaf over the square at (x, y) of side `w`, at depth `d`. */
  function EmptyLeaf(x: real, y: real, w: real, d: int): Node {
    Leaf(Box(x, y, w), d, map[])
  }

  /** A node may be cut only while the centre of its square has positive coordinates. */
  predicate CanCut(n: Node) {
    n.box.xStart + n.box.width / 2.0 > 0.0 && n.box.yStart + n.box.width / 2.0 > 0.0
  }

  /** A leaf is cut before an add when one more entity would exceed the capacity,
      the children would not be deeper than allowed, and it may be cut at all. */
  predicate NeedCut(cfg: Config, n: Node)
    requires n.Leaf?
  {
    |n.entities| + 1 > cfg.maxCap && n.deep + 1 <= cfg.maxDeep && CanCut(n)
  }

  /** The child a position is routed to, decided against the corner of the
      right-down child: left of it goes left, above it goes up. */
  function FindSonQuadrant(n: Node, x: real, y: real): (q: int)
    requires n.Inner?
    ensures 0 <= q < 4
    ensures (q == LeftUp || q == LeftDown) <==> x < n.rightDown.box.xStart
    ensures (q == LeftUp || q == RightUp) <==> y < n.rightDown.box.yStart
  {
    if x < n.rightDown.box.xStart then
      if y < n.rightDown.box.yStart then LeftUp else LeftDown
    else if y < n.rightDown.box.yStart then RightUp
    else RightDown
  }

  /** The entries of `es` whose position lies in `b`. */
  function Within(es: map<string, Entity>, b: Box): map<string, Entity> {
    map k | k in es && Intersects(b, es[k].x, es[k].y) :: es[k]
  }

  /** Child `q` of a cut of leaf `n`: an empty son, filled with the entities in its square. */
  function Son(n: Node, q: int): Node
    requires n.Leaf? && 0 <= q < 4
  {
    var b := Quadrant(n.box, q);
    NewSonNode(b.xStart, b.yStart, n).(entities := Within(n.entities, b))
  }

  /** Cuts a leaf into four children and hands each entity to the child whose
      square holds it; the leaf's own entities are released. */
  function Cut(n: Node): (r: Node)
    requires n.Leaf?
    ensures r.Inner? && r.box == n.box && r.deep == n.deep
    ensures forall q :: 0 <= q < 4 ==> Child(r, q) == Son(n, q)
  {
    Inner(n.box, n.deep, Son(n, LeftUp), Son(n, RightUp), Son(n, LeftDown), Son(n, RightDown))
  }

  /** A measure that every add step decreases: a leaf counts the cuts still
      allowed below it, an inner node counts itself and its children. */
  function Rank(maxDeep: int, n: Node): nat {
    match n
    case Leaf(_, deep, _) => if deep < maxDeep then maxDeep - deep else 0
    case Inner(_, _, a, b, c, d) => 1 + Rank(maxDeep, a) + Rank(maxDeep, b) + Rank(maxDeep, c) + Rank(maxDeep, d)
  }

  lemma RankOfChild(maxDeep: int, n: Node, q: int)
    requires n.Inner? && 0 <= q < 4
    ensures Rank(maxDeep, Child(n, q)) < Rank(maxDeep, n)
  {
  }

  /** Files `name` at (x, y): a full leaf is cut first if it may be, then the
      entity goes down to the child its position is routed to, and a leaf
      stores it under its name, replacing any entity of that name there. */
  function Add(cfg: Config, n: Node, x: real, y: real, name: string): (r: Node)
    ensures r.box == n.box && r.deep == n.deep
    ensures n.Inner? ==> r.Inner?
    decreases Rank(cfg.maxDeep, n)
  {
    var m := if n.Leaf? && NeedCut(cfg, n) then Cut(n) else n;
    if m.Inner? then
      var q := FindSonQuadrant(m, x, y);
      RankOfChild(cfg.maxDeep, m, q);
      assert Rank(cfg.maxDeep, Child(m, q)) < Rank(cfg.maxDeep, n);
      WithChild(m, q, Add(cfg, Child(m, q), x, y, name))
    else
      m.(entities := m.entities[name := Entity(x, y, name)])
  }

  /** Removes `name` from the leaf (x, y) is routed to, if it is there. */
  function Delete(n: Node, x: real, y: real, name: string): (r: Node)
    ensures r.box == n.box && r.deep == n.deep && r.Leaf? == n.Leaf?
  {
    if n.Inner? then
      var q := FindSonQuadrant(n, x, y);
      WithChild(n, q, Delete(Child(n, q), x, y, name))
    else
      n.(entities := n.entities - {name})
  }

  /** The leaf a position is routed to. */
  function LeafAt(n: Node, x: real, y: real): (r: Node)
    ensures r.Leaf?
  {
    if n.Inner? then LeafAt(Child(n, FindSonQuadrant(n, x, y)), x, y) else n
  }

  /** Every entity filed anywhere in the subtree. */
  function Members(n: Node): set<Entity> {
    match n
    case Leaf(_, _, es) => es.Values
    case Inner(_, _, a, b, c, d) => Members(a) + Members(b) + Members(c) + Members(d)
  }

  /** The names a leaf reports: one per entity filed in it. */
  function Names(es: map<string, Entity>): multiset<string> {
    multiset(es.Keys)
  }

  /** The search window: a corner of the square of half-side `r` around (x, y) lies in `b`. */
  predicate CornerIn(b: Box, x: real, y: real, r: real) {
    || Intersects(b, x - r, y - r) || Intersects(b, x + r, y - r)
    || Intersects(b, x - r, y + r) || Intersects(b, x + r, y + r)
  }

  /** The search as the program performs it: a leaf reports all its names, an
      inner node descends into each child holding a corner of the window. */
  function SearchByCorners(radius: real, n: Node, x: real, y: real): multiset<string> {
    match n
    case Leaf(_, _, es) => Names(es)
    case Inner(_, _, a, b, c, d) =>
      (if CornerIn(a.box, x, y, radius) then SearchByCorners(radius, a, x, y) else multiset{})
      + (if CornerIn(b.box, x, y, radius) then SearchByCorners(radius, b, x, y) else multiset{})
      + (if CornerIn(c.box, x, y, radius) then SearchByCorners(radius, c, x, y) else multiset{})
      + (if CornerIn(d.box, x, y, radius) then SearchByCorners(radius, d, x, y) else multiset{})
  }

  /** The (closed) window of half-side `r` around (x, y) meets the half-open square `b`. */
  predicate Overlaps(b: Box, x: real, y: real, r: real) {
    && 0.0 < b.width
    && b.xStart <= x + r && x - r < b.xStart + b.width
    && b.yStart <= y + r && y - r < b.yStart + b.width
  }

  /** The search with the evident intent: descend into every child whose square
      meets the window. */
  function SearchByOverlap(radius: real, n: Node, x: real, y: real): multiset<string> {
    match n
    case Leaf(_, _, es) => Names(es)
    case Inner(_, _, a, b, c, d) =>
      (if Overlaps(a.box, x, y, radius) then SearchByOverlap(radius, a, x, y) else multiset{})
      + (if Overlaps(b.box, x, y, radius) then SearchByOverlap(radius, b, x, y) else multiset{})
      + (if Overlaps(c.box, x, y, radius) then SearchByOverlap(radius, c, x, y) else multiset{})
      + (if Overlaps(d.box, x, y, radius) then SearchByOverlap(radius, d, x, y) else multiset{})
  }

  /** A new tree over the square at (xStart, yStart) of side `width`: one empty
      leaf at depth 1, with the default capacity, depth limit and radius. */
  function NewQuadTree(xStart: real, yStart: real, width: real): (t: Tree)
    ensures t.cfg.maxCap == 500 && t.cfg.maxDeep == 4 && t.cfg.radius == 16.0
    ensures t.root.Leaf? && t.root.deep == 1 && t.root.entities == map[]
    ensures t.root.box == Box(xStart, yStart, width)
  {
    Tree(Config(DefaultMaxCap, DefaultMaxDeep, DefaultRadius), Leaf(Box(xStart, yStart, width), 1, map[]))
  }

  /** The tree-level operations the index offers: add, delete and search at a position. */
  function TreeAdd(t: Tree, x: real, y: real, name: string): (r: Tree)
    ensures r.cfg == t.cfg && r.root.box == t.root.box
  {
    t.(root := Add(t.cfg, t.root, x, y, name))
  }

  function TreeDelete(t: Tree, x: real, y: real, name: string): (r: Tree)
    ensures r.cfg == t.cfg && r.root.box == t.root.box
  {
    t.(root := Delete(t.root, x, y, name))
  }

  /** The search the rest of the model relies on: every leaf whose square meets the window. */
  function Search(t: Tree, x: real, y: real): multiset<string> {
    SearchByOverlap(t.cfg.radius, t.root, x, y)
  }

  /** The search exactly as the program performs it. */
  function SearchAsWritten(t: Tree, x: real, y: real): multiset<string> {
    SearchByCorners(t.cfg.radius, t.root, x, y)
  }
}

=== FILE: quadtree_finding.dfy ===
/**
 * The search as written descends only into children holding a corner of the
 * window, so a child narrower than the window can be skipped even when it
 * holds the query point. With the default depth limit and radius this happens
 * on the 100 × 100 square: leaves are 12.5 wide, the window 32.
 */
module QuadTreeFinding {
  import opened Aoi
  import opened QuadTree
  import opened QuadTreeProofs

  /** The default parameters with capacity 1, so that a second entity cuts. */
  const Tight: Config := Config(1, DefaultMaxDeep, DefaultRadius)

  function A(): Entity { Entity(1.0, 1.0, "a") }
  function B(): Entity { Entity(2.0, 2.0, "b") }

  /** The node over the square at the origin of side `w` at depth `d` after the
      second add: cut again and again down to depth 4, where both entities sit
      in the left-up leaf. */
  function Corner(w: real, d: int): Node
    requires 1 <= d <= 4
    decreases 4 - d
  {
    if d == 4 then Leaf(Box(0.0, 0.0, w), 4, map["a" := A(), "b" := B()])
    else
      var h := w / 2.0;
      Inner(Box(0.0, 0.0, w), d, Corner(h, d + 1), EmptyLeaf(h, 0.0, h, d + 1), EmptyLeaf(0.0, h, h, d + 1), EmptyLeaf(h, h, h, d + 1))
  }

  /** Adding b to a leaf at the origin that holds only a, as deep as `d`, cuts down to depth 4. */
  lemma {:induction false} AddCuts(w: real, d: int)
    requires 1 <= d <= 4 && 2.0 * (if d == 1 then 8.0 else if d == 2 then 4.0 else if d == 3 then 2.0 else 1.0) < w
    ensures Add(Tight, Leaf(Box(0.0, 0.0, w), d, map["a" := A()]), 2.0, 2.0, "b") == Corner(w, d)
    decreases 4 - d
  {
    var n := Leaf(Box(0.0, 0.0, w), d, map["a" := A()]);
    if d < 4 {
      assert NeedCut(Tight, n);
      var c := Cut(n);
      var h := w / 2.0;
      assert c.leftUp.entities == map["a" := A()];
      assert c.rightUp.entities == map[] && c.leftDown.entities == map[] && c.rightDown.entities == map[];
      assert FindSonQuadrant(c, 2.0, 2.0) == LeftUp;
      AddCuts(h, d + 1);
      assert c.leftUp == Leaf(Box(0.0, 0.0, h), d + 1, map["a" := A()]);
    } else {
      assert !NeedCut(Tight, n);
    }
  }

  /** The tree the two adds build on the default 100 × 100 square (capacity 1). */
  lemma TwoAdds()
    ensures var t := NewQuadTree(0.0, 0.0, 100.0);
      TreeAdd(TreeAdd(t.(cfg := Tight), 1.0, 1.0, "a"), 2.0, 2.0, "b") == Tree(Tight, Corner(100.0, 1))
  {
    AddCuts(100.0, 1);
  }

  /** The tree the two adds build is valid, since adds keep a valid tree valid. */
  lemma CornerValid()
    ensures Valid(Corner(100.0, 1))
  {
    var t := NewQuadTree(0.0, 0.0, 100.0).(cfg := Tight);
    NewTreeValid(0.0, 0.0, 100.0);
    AddValid(Tight, t.root, 1.0, 1.0, "a");
    AddValid(Tight, Add(Tight, t.root, 1.0, 1.0, "a"), 2.0, 2.0, "b");
    TwoAdds();
  }

  /** The deepest cut: only the right-down child holds a corner of the window
      around (2, 2), and it is empty. */
  lemma DeepestMisses()
    ensures SearchByCorners(DefaultRadius, Corner(25.0, 3), 2.0, 2.0) == multiset{}
  {
    var n := Corner(25.0, 3);
    assert !CornerIn(n.leftUp.box, 2.0, 2.0, DefaultRadius);
    assert !CornerIn(n.rightUp.box, 2.0, 2.0, DefaultRadius);
    assert !CornerIn(n.leftDown.box, 2.0, 2.0, DefaultRadius);
    assert SearchByCorners(DefaultRadius, n.rightDown, 2.0, 2.0) == multiset{};
  }

  /** Above that level every other child is an empty leaf, so nothing is reported. */
  lemma UpperMisses(w: real, d: int)
    requires d == 1 || d == 2
    requires SearchByCorners(DefaultRadius, Corner(w / 2.0, d + 1), 2.0, 2.0) == multiset{}
    ensures SearchByCorners(DefaultRadius, Corner(w, d), 2.0, 2.0) == multiset{}
  {
    var n := Corner(w, d);
    assert n.leftUp == Corner(w / 2.0, d + 1);
    assert SearchByCorners(DefaultRadius, n.rightUp, 2.0, 2.0) == multiset{};
    assert SearchByCorners(DefaultRadius, n.leftDown, 2.0, 2.0) == multiset{};
    assert SearchByCorners(DefaultRadius, n.rightDown, 2.0, 2.0) == multiset{};
  }

  /** The two entities lie in the deepest leaf. */
  lemma BothFiled()
    ensures A() in Members(Corner(100.0, 1)) && B() in Members(Corner(100.0, 1))
  {
    var n4 := Corner(12.5, 4);
    assert n4.entities["a"] == A() && n4.entities["b"] == B();
    assert Corner(25.0, 3).leftUp == n4;
    assert Corner(50.0, 2).leftUp == Corner(25.0, 3);
    assert Corner(100.0, 1).leftUp == Corner(50.0, 2);
  }

  /** As written, a search at b's own position after the two adds reports nothing,
      although b is filed in the tree and lies at the query point itself. */
  lemma SearchMissesOwnLeaf()
    ensures var t := Tree(Tight, Corner(100.0, 1));
      && B() in Members(t.root) && Near(B(), 2.0, 2.0, t.cfg.radius)
      && SearchAsWritten(t, 2.0, 2.0) == multiset{}
  {
    BothFiled();
    DeepestMisses();
    UpperMisses(50.0, 2);
    UpperMisses(100.0, 1);
  }

  /** The overlap search, on the same tree and query, reports both. */
  lemma SearchByOverlapFindsBoth()
    ensures var t := Tree(Tight, Corner(100.0, 1));
      "a" in Search(t, 2.0, 2.0) && "b" in Search(t, 2.0, 2.0)
  {
    var t := Tree(Tight, Corner(100.0, 1));
    CornerValid();
    BothFiled();
    SearchComplete(DefaultRadius, t.root, 2.0, 2.0, A());
    SearchComplete(DefaultRadius, t.root, 2.0, 2.0, B());
  }
}

=== FILE: quadtree_proofs.dfy ===
/**
 * What the quadtree keeps true and what its operations promise: the four
 * quarters tile a square and routing picks the quarter holding a position;
 * a cut hands on exactly the entities inside the square; an add files the
 * entity where a later descent finds it and keeps every other name; a
 * delete removes the name from the leaf its position is routed to; depth
 * and capacity bounds hold; and the window search is sound and complete.
 */
module QuadTreeProofs {
  import opened Aoi
  import opened QuadTree

  /* ---------------------------------------------------------------- invariants */

  /** Every inner node's children have the squares and depth a cut gives them. */
  ghost predicate Shaped(n: Node) {
    match n
    case Leaf(_, _, _) => true
    case Inner(b, d, lu, ru, ld, rd) =>
      && (forall q :: 0 <= q < 4 ==> Child(n, q).box == Quadrant(b, q) && Child(n, q).deep == d + 1)
      && Shaped(lu) && Shaped(ru) && Shaped(ld) && Shaped(rd)
  }

  /** Every leaf files each entity under its own name and holds it inside its square. */
  ghost predicate Placed(n: Node) {
    match n
    case Leaf(b, _, es) => forall k :: k in es ==> es[k].key == k && Intersects(b, es[k].x, es[k].y)
    case Inner(_, _, lu, ru, ld, rd) => Placed(lu) && Placed(ru) && Placed(ld) && Placed(rd)
  }

  ghost predicate Valid(n: Node) {
    Shaped(n) && Placed(n)
  }

  /* ------------------------------------------------------------------ geometry */

  /** The quarters of a square tile it, and routing against the right-down quarter
      picks the quarter that holds the position. */
  lemma RoutedQuadrant(n: Node, x: real, y: real, q: int)
    requires n.Inner? && n.rightDown.box == Quadrant(n.box, RightDown) && 0 <= q < 4
    ensures Intersects(Quadrant(n.box, q), x, y) <==> Intersects(n.box, x, y) && q == FindSonQuadrant(n, x, y)
  {
  }

  /** Every quarter lies inside its square. */
  lemma QuadrantInside(b: Box, q: int, x: real, y: real)
    requires 0 <= q < 4 && Intersects(Quadrant(b, q), x, y)
    ensures Intersects(b, x, y)
  {
  }

  /* ----------------------------------------------------------------------- cut */

  /** What a son of a cut holds: the entities of the leaf inside its quarter. */
  lemma SonMembers(n: Node, q: int)
    requires n.Leaf? && 0 <= q < 4
    ensures forall m :: m in Members(Son(n, q)) <==> m in n.entities.Values && Intersects(Quadrant(n.box, q), m.x, m.y)
  {
    var es := n.entities;
    var b := Quadrant(n.box, q);
    var w := Within(es, b);
    forall m
      ensures m in w.Values <==> m in es.Values && Intersects(b, m.x, m.y)
    {
      if m in w.Values {
        var k :| k in w && w[k] == m;
      }
      if m in es.Values && Intersects(b, m.x, m.y) {
        var k :| k in es && es[k] == m;
        assert w[k] == m;
      }
    }
  }

  /** A cut keeps exactly the entities inside the leaf's square: each goes to the
      quarter holding it, and an entity filed outside the square is dropped. The
      result is shaped, and placed when the leaf was. */
  lemma CutRedistributes(n: Node)
    requires n.Leaf?
    ensures Shaped(Cut(n))
    ensures forall m :: m in Members(Cut(n)) <==> m in Members(n) && Intersects(n.box, m.x, m.y)
    ensures Placed(n) ==> Placed(Cut(n))
  {
    var c := Cut(n);
    SonMembers(n, LeftUp);
    SonMembers(n, RightUp);
    SonMembers(n, LeftDown);
    SonMembers(n, RightDown);
    forall m | m in Members(n) && Intersects(n.box, m.x, m.y)
      ensures m in Members(c)
    {
      var q := FindSonQuadrant(c, m.x, m.y);
      RoutedQuadrant(c, m.x, m.y, q);
      assert m in Members(Child(c, q));
    }
    forall m | m in Members(c)
      ensures Intersects(n.box, m.x, m.y)
    {
      var q :| 0 <= q < 4 && m in Members(Child(c, q));
      QuadrantInside(n.box, q, m.x, m.y);
    }
  }

  /* ----------------------------------------------------------------------- add */

  /** An inner node holds what its four children hold. */
  lemma MembersOfInner(n: Node)
    requires n.Inner?
    ensures forall e :: e in Members(n) <==> exists q :: 0 <= q < 4 && e in Members(Child(n, q))
  {
    forall e | e in Members(n)
      ensures exists q :: 0 <= q < 4 && e in Members(Child(n, q))
    {
      if e in Members(n.leftUp) {
        assert e in Members(Child(n, LeftUp));
      } else if e in Members(n.rightUp) {
        assert e in Members(Child(n, RightUp));
      } else if e in Members(n.leftDown) {
        assert e in Members(Child(n, LeftDown));
      } else {
        assert e in Members(Child(n, RightDown));
      }
    }
  }

  /** Replacing child `q` keeps the routing and changes only that child's share of the members. */
  lemma ReplaceChild(m: Node, q: int, c: Node)
    requires m.Inner? && 0 <= q < 4 && c.box == Child(m, q).box
    ensures forall x: real, y: real :: FindSonQuadrant(WithChild(m, q, c), x, y) == FindSonQuadrant(m, x, y)
    ensures forall e :: e in Members(WithChild(m, q, c)) <==>
      e in Members(c) || exists p :: 0 <= p < 4 && p != q && e in Members(Child(m, p))
  {
    var r := WithChild(m, q, c);
    assert r.rightDown.box == m.rightDown.box by {
      assert Child(r, RightDown).box == Child(m, RightDown).box;
    }
    MembersOfInner(r);
    MembersOfInner(m);
  }

  /** After an add, a descent to the same position finds the new entity under its
      name, wherever the position is, inside the root's square or not. */
  lemma {:induction false} AddFiles(cfg: Config, n: Node, x: real, y: real, name: string)
    ensures var l := LeafAt(Add(cfg, n, x, y, name), x, y);
      name in l.entities && l.entities[name] == Entity(x, y, name)
    decreases Rank(cfg.maxDeep, n)
  {
    var m := if n.Leaf? && NeedCut(cfg, n) then Cut(n) else n;
    if m.Inner? {
      var q := FindSonQuadrant(m, x, y);
      RankOfChild(cfg.maxDeep, m, q);
      var c := Add(cfg, Child(m, q), x, y, name);
      assert Add(cfg, n, x, y, name) == WithChild(m, q, c);
      ReplaceChild(m, q, c);
      AddFiles(cfg, Child(m, q), x, y, name);
    }
  }

  /** The leaf a position is routed to is one of the subtree's leaves. */
  lemma {:induction false} LeafAtMembers(n: Node, x: real, y: real)
    ensures LeafAt(n, x, y).entities.Values <= Members(n)
  {
    if n.Inner? {
      var q := FindSonQuadrant(n, x, y);
      LeafAtMembers(Child(n, q), x, y);
      MembersOfInner(n);
    }
  }

  /** An add contributes only the new entity; under the invariant it loses no
      entity of another name (a cut on the way hands every entity on). */
  lemma {:induction false} AddMembers(cfg: Config, n: Node, x: real, y: real, name: string)
    ensures Entity(x, y, name) in Members(Add(cfg, n, x, y, name))
    ensures Members(Add(cfg, n, x, y, name)) <= Members(n) + {Entity(x, y, name)}
    ensures Placed(n) ==> forall e :: e in Members(n) && e.key != name ==> e in Members(Add(cfg, n, x, y, name))
    decreases Rank(cfg.maxDeep, n)
  {
    var r := Add(cfg, n, x, y, name);
    AddFiles(cfg, n, x, y, name);
    LeafAtMembers(r, x, y);
    var m := if n.Leaf? && NeedCut(cfg, n) then Cut(n) else n;
    if n.Leaf? && NeedCut(cfg, n) {
      CutRedistributes(n);
    }
    if m.Inner? {
      var q := FindSonQuadrant(m, x, y);
      RankOfChild(cfg.maxDeep, m, q);
      var c := Add(cfg, Child(m, q), x, y, name);
      assert r == WithChild(m, q, c);
      ReplaceChild(m, q, c);
      MembersOfInner(m);
      AddMembers(cfg, Child(m, q), x, y, name);
      if Placed(n) {
        assert Placed(m);
        assert Placed(Child(m, q));
        forall e | e in Members(n) && e.key != name
          ensures e in Members(r)
        {
          assert e in Members(m);
        }
      }
    } else if Placed(n) {
      LeafStoreKeeps(n, Entity(x, y, name));
    }
  }

  /** An add touches only the leaf the position is routed to: every entity filed
      in any other leaf is still in the tree, whatever its name. */
  lemma {:induction false} AddKeepsOtherLeaves(cfg: Config, n: Node, x: real, y: real, name: string)
    ensures forall e :: e in Members(n) && e !in LeafAt(n, x, y).entities.Values ==> e in Members(Add(cfg, n, x, y, name))
    decreases Rank(cfg.maxDeep, n)
  {
    if n.Inner? {
      var q := FindSonQuadrant(n, x, y);
      RankOfChild(cfg.maxDeep, n, q);
      var c := Add(cfg, Child(n, q), x, y, name);
      assert Add(cfg, n, x, y, name) == WithChild(n, q, c);
      ReplaceChild(n, q, c);
      MembersOfInner(n);
      AddKeepsOtherLeaves(cfg, Child(n, q), x, y, name);
    }
  }

  /** Storing under one name in a leaf that files entities by name keeps every
      entity of another name. */
  lemma LeafStoreKeeps(n: Node, f: Entity)
    requires n.Leaf? && Placed(n)
    ensures forall e :: e in Members(n) && e.key != f.key ==> e in Members(n.(entities := n.entities[f.key := f]))
  {
    var r := n.(entities := n.entities[f.key := f]);
    forall e | e in Members(n) && e.key != f.key
      ensures e in Members(r)
    {
      var k :| k in n.entities && n.entities[k] == e;
      assert r.entities[k] == e;
    }
  }

  /** Adding at a position inside the root's square keeps the tree shaped and placed. */
  lemma {:induction false} AddValid(cfg: Config, n: Node, x: real, y: real, name: string)
    requires Valid(n) && Intersects(n.box, x, y)
    ensures Valid(Add(cfg, n, x, y, name))
    decreases Rank(cfg.maxDeep, n)
  {
    var r := Add(cfg, n, x, y, name);
    var m := if n.Leaf? && NeedCut(cfg, n) then Cut(n) else n;
    if n.Leaf? && NeedCut(cfg, n) {
      CutRedistributes(n);
    }
    assert Valid(m);
    if m.Inner? {
      var q := FindSonQuadrant(m, x, y);
      RankOfChild(cfg.maxDeep, m, q);
      RoutedQuadrant(m, x, y, q);
      var c := Add(cfg, Child(m, q), x, y, name);
      assert r == WithChild(m, q, c);
      AddValid(cfg, Child(m, q), x, y, name);
      ValidWithChild(m, q, c);
    }
  }

  /** Replacing a child of a valid node by a valid node over the same square and
      depth keeps the node valid. */
  lemma ValidWithChild(m: Node, q: int, c: Node)
    requires m.Inner? && 0 <= q < 4 && Valid(m) && Valid(c)
    requires c.box == Child(m, q).box && c.deep == Child(m, q).deep
    ensures Valid(WithChild(m, q, c))
  {
    var r := WithChild(m, q, c);
    assert forall p :: 0 <= p < 4 ==>
      Valid(Child(r, p)) && Child(r, p).box == Child(m, p).box && Child(r, p).deep == Child(m, p).deep;
  }

  /* -------------------------------------------------------------------- delete */

  /** After a delete, the leaf the position is routed to no longer files the name,
      and files every other name it filed before. */
  lemma {:induction false} DeleteRemoves(n: Node, x: real, y: real, name: string)
    ensures LeafAt(Delete(n, x, y, name), x, y).entities == LeafAt(n, x, y).entities - {name}
  {
    if n.Inner? {
      var q := FindSonQuadrant(n, x, y);
      var c := Delete(Child(n, q), x, y, name);
      ReplaceChild(n, q, c);
      DeleteRemoves(Child(n, q), x, y, name);
    }
  }

  /** Deleting a name the routed leaf does not file leaves the tree as it was. */
  lemma {:induction false} DeleteAbsent(n: Node, x: real, y: real, name: string)
    requires name !in LeafAt(n, x, y).entities
    ensures Delete(n, x, y, name) == n
  {
    if n.Inner? {
      var q := FindSonQuadrant(n, x, y);
      DeleteAbsent(Child(n, q), x, y, name);
      var r := WithChild(n, q, Child(n, q));
      assert forall p :: 0 <= p < 4 ==> Child(r, p) == Child(n, p);
      assert r.leftUp == n.leftUp && r.rightUp == n.rightUp;
      assert r.leftDown == n.leftDown && r.rightDown == n.rightDown;
    } else {
      assert n.entities - {name} == n.entities;
    }
  }

  /** A delete loses only what the routed leaf filed under the name: every entity
      elsewhere stays, and under the invariant so does every entity of another name. */
  lemma {:induction false} DeleteMembers(n: Node, x: real, y: real, name: string)
    ensures Members(Delete(n, x, y, name)) <= Members(n)
    ensures forall e :: e in Members(n) && e !in LeafAt(n, x, y).entities.Values ==> e in Members(Delete(n, x, y, name))
    ensures Placed(n) ==> forall e :: e in Members(n) && e.key != name ==> e in Members(Delete(n, x, y, name))
  {
    var r := Delete(n, x, y, name);
    if n.Inner? {
      var q := FindSonQuadrant(n, x, y);
      var c := Delete(Child(n, q), x, y, name);
      ReplaceChild(n, q, c);
      MembersOfInner(n);
      DeleteMembers(Child(n, q), x, y, name);
    } else {
      forall e | e in Members(n) && (e !in n.entities.Values || (Placed(n) && e.key != name))
        ensures e in Members(r)
      {
        var k :| k in n.entities && n.entities[k] == e;
        assert r.entities[k] == e;
      }
    }
  }

  /** A delete keeps the tree shaped and placed. */
  lemma {:induction false} DeleteValid(n: Node, x: real, y: real, name: string)
    requires Valid(n)
    ensures Valid(Delete(n, x, y, name))
  {
    if n.Inner? {
      var q := FindSonQuadrant(n, x, y);
      var r := Delete(n, x, y, name);
      DeleteValid(Child(n, q), x, y, name);
      assert forall p :: 0 <= p < 4 ==>
        Valid(Child(r, p)) && Child(r, p).box == Child(n, p).box && Child(r, p).deep == Child(n, p).deep;
    }
  }

  /* --------------------------------------------------------------------- shape */

  /** The two trees have the same nodes: the same kind, square and depth everywhere. */
  ghost predicate SameShape(a: Node, b: Node)
    decreases a
  {
    && a.box == b.box && a.deep == b.deep && a.Leaf? == b.Leaf?
    && (a.Inner? ==>
         && SameShape(a.leftUp, b.leftUp) && SameShape(a.rightUp, b.rightUp)
         && SameShape(a.leftDown, b.leftDown) && SameShape(a.rightDown, b.rightDown))
  }

  /** `r` keeps every node of `n` in place and every inner node inner; only a leaf
      of `n` may have become an inner node of `r`. */
  ghost predicate Extends(r: Node, n: Node)
    decreases n
  {
    && r.box == n.box && r.deep == n.deep
    && (n.Inner? ==>
         && r.Inner?
         && Extends(r.leftUp, n.leftUp) && Extends(r.rightUp, n.rightUp)
         && Extends(r.leftDown, n.leftDown) && Extends(r.rightDown, n.rightDown))
  }

  lemma {:induction false} SameShapeSelf(n: Node)
    ensures SameShape(n, n)
  {
    if n.Inner? {
      SameShapeSelf(n.leftUp);
      SameShapeSelf(n.rightUp);
      SameShapeSelf(n.leftDown);
      SameShapeSelf(n.rightDown);
    }
  }

  lemma {:induction false} ExtendsSelf(n: Node)
    ensures Extends(n, n)
  {
    if n.Inner? {
      ExtendsSelf(n.leftUp);
      ExtendsSelf(n.rightUp);
      ExtendsSelf(n.leftDown);
      ExtendsSelf(n.rightDown);
    }
  }

  /** A delete changes no node's kind, square or depth. */
  lemma {:induction false} DeleteKeepsShape(n: Node, x: real, y: real, name: string)
    ensures SameShape(Delete(n, x, y, name), n)
  {
    if n.Inner? {
      var q := FindSonQuadrant(n, x, y);
      var r := Delete(n, x, y, name);
      DeleteKeepsShape(Child(n, q), x, y, name);
      forall p | 0 <= p < 4
        ensures SameShape(Child(r, p), Child(n, p))
      {
        if p != q {
          SameShapeSelf(Child(n, p));
        }
      }
      assert Child(r, LeftUp) == r.leftUp && Child(r, RightUp) == r.rightUp;
      assert Child(r, LeftDown) == r.leftDown && Child(r, RightDown) == r.rightDown;
    }
  }

  /** An add keeps every node's square and depth and never turns an inner node
      back into a leaf; it only cuts leaves. */
  lemma {:induction false} AddOnlyGrows(cfg: Config, n: Node, x: real, y: real, name: string)
    ensures Extends(Add(cfg, n, x, y, name), n)
    decreases Rank(cfg.maxDeep, n)
  {
    if n.Inner? {
      var q := FindSonQuadrant(n, x, y);
      RankOfChild(cfg.maxDeep, n, q);
      var r := Add(cfg, n, x, y, name);
      AddOnlyGrows(cfg, Child(n, q), x, y, name);
      forall p | 0 <= p < 4
        ensures Extends(Child(r, p), Child(n, p))
      {
        if p != q {
          ExtendsSelf(Child(n, p));
        }
      }
      assert Child(r, LeftUp) == r.leftUp && Child(r, RightUp) == r.rightUp;
      assert Child(r, LeftDown) == r.leftDown && Child(r, RightDown) == r.rightDown;
    }
  }

  /* ------------------------------------------------------- depth and capacity */

  /** No node of the subtree is deeper than `d`. */
  ghost predicate DepthWithin(n: Node, d: int) {
    match n
    case Leaf(_, deep, _) => deep <= d
    case Inner(_, deep, a, b, c, e) => deep <= d && DepthWithin(a, d) && DepthWithin(b, d) && DepthWithin(c, d) && DepthWithin(e, d)
  }

  /** Adds never grow the tree below the configured depth: a tree no deeper than
      `d`, with `d` at least the limit, stays so. */
  lemma {:induction false} AddKeepsDepth(cfg: Config, n: Node, x: real, y: real, name: string, d: int)
    requires DepthWithin(n, d) && cfg.maxDeep <= d
    ensures DepthWithin(Add(cfg, n, x, y, name), d)
    decreases Rank(cfg.maxDeep, n)
  {
    var m := if n.Leaf? && NeedCut(cfg, n) then Cut(n) else n;
    if n.Leaf? && NeedCut(cfg, n) {
      CutBounds(cfg, n, d);
    }
    if m.Inner? {
      var q := FindSonQuadrant(m, x, y);
      RankOfChild(cfg.maxDeep, m, q);
      var r := Add(cfg, n, x, y, name);
      AddKeepsDepth(cfg, Child(m, q), x, y, name, d);
      assert forall p :: 0 <= p < 4 ==> DepthWithin(Child(r, p), d);
    }
  }

  /** A leaf files more than the capacity only when it may not be cut further. */
  ghost predicate WithinCapacity(cfg: Config, n: Node) {
    match n
    case Leaf(_, deep, es) => |es| <= cfg.maxCap || !(deep + 1 <= cfg.maxDeep && CanCut(n))
    case Inner(_, _, a, b, c, e) =>
      WithinCapacity(cfg, a) && WithinCapacity(cfg, b) && WithinCapacity(cfg, c) && WithinCapacity(cfg, e)
  }

  lemma {:induction false} SubsetSize<T>(a: set<T>, b: set<T>)
    requires a <= b
    ensures |a| <= |b|
    decreases |b|
  {
    if b != {} {
      var x :| x in b;
      SubsetSize(a - {x}, b - {x});
    }
  }

  /** A son of a cut files no more than the leaf did. */
  lemma SonSize(n: Node, q: int)
    requires n.Leaf? && 0 <= q < 4
    ensures |Son(n, q).entities| <= |n.entities|
  {
    SubsetSize(Son(n, q).entities.Keys, n.entities.Keys);
  }

  /** The sons of a cut sit one level down and file no more than the leaf did. */
  lemma CutBounds(cfg: Config, n: Node, d: int)
    requires n.Leaf?
    ensures n.deep + 1 <= d ==> DepthWithin(Cut(n), d)
    ensures |n.entities| <= cfg.maxCap ==> WithinCapacity(cfg, Cut(n))
  {
    var c := Cut(n);
    forall q | 0 <= q < 4
      ensures Child(c, q).Leaf? && Child(c, q).deep == n.deep + 1
      ensures |Child(c, q).entities| <= |n.entities|
    {
      SonSize(n, q);
    }
    assert c.leftUp == Child(c, LeftUp) && c.rightUp == Child(c, RightUp);
    assert c.leftDown == Child(c, LeftDown) && c.rightDown == Child(c, RightDown);
  }

  /** Adds keep every leaf within capacity unless it may not be cut. */
  lemma {:induction false} AddKeepsCapacity(cfg: Config, n: Node, x: real, y: real, name: string)
    requires WithinCapacity(cfg, n)
    ensures WithinCapacity(cfg, Add(cfg, n, x, y, name))
    decreases Rank(cfg.maxDeep, n)
  {
    var m := if n.Leaf? && NeedCut(cfg, n) then Cut(n) else n;
    if n.Leaf? && NeedCut(cfg, n) {
      CutBounds(cfg, n, n.deep + 1);
    }
    if m.Inner? {
      var q := FindSonQuadrant(m, x, y);
      RankOfChild(cfg.maxDeep, m, q);
      var r := Add(cfg, n, x, y, name);
      AddKeepsCapacity(cfg, Child(m, q), x, y, name);
      assert forall p :: 0 <= p < 4 ==> WithinCapacity(cfg, Child(r, p));
    }
  }

  /* -------------------------------------------------------------------- search */

  /** A window corner inside a square means the window meets the square. */
  lemma CornerMeansOverlap(b: Box, x: real, y: real, r: real)
    requires 0.0 <= r && CornerIn(b, x, y, r)
    ensures Overlaps(b, x, y, r)
  {
  }

  /** For a square at least as wide as the window, the window meets it only with a
      corner inside it. */
  lemma WideOverlapHasCorner(b: Box, x: real, y: real, r: real)
    requires 0.0 <= r && 2.0 * r <= b.width && Overlaps(b, x, y, r)
    ensures CornerIn(b, x, y, r)
  {
    var cx := if b.xStart <= x - r then x - r else x + r;
    var cy := if b.yStart <= y - r then y - r else y + r;
    assert b.xStart <= cx < b.xStart + b.width;
    assert b.yStart <= cy < b.yStart + b.width;
  }

  /** Every node below the root is at least as wide as a window of half-side `r`. */
  ghost predicate Wide(n: Node, r: real) {
    match n
    case Leaf(_, _, _) => true
    case Inner(_, _, a, b, c, d) =>
      && 2.0 * r <= a.box.width && 2.0 * r <= b.box.width && 2.0 * r <= c.box.width && 2.0 * r <= d.box.width
      && Wide(a, r) && Wide(b, r) && Wide(c, r) && Wide(d, r)
  }

  /** What one child adds to the search as written, and to the overlap search. */
  function CornerTerm(r: real, c: Node, x: real, y: real): multiset<string> {
    if CornerIn(c.box, x, y, r) then SearchByCorners(r, c, x, y) else multiset{}
  }

  function OverlapTerm(r: real, c: Node, x: real, y: real): multiset<string> {
    if Overlaps(c.box, x, y, r) then SearchByOverlap(r, c, x, y) else multiset{}
  }

  /** The search as written reports a part of what the overlap search reports. */
  lemma {:induction false} CornersWithinOverlap(r: real, n: Node, x: real, y: real)
    requires 0.0 <= r
    ensures SearchByCorners(r, n, x, y) <= SearchByOverlap(r, n, x, y)
    decreases n, 0
  {
    if n.Inner? {
      ChildWithin(r, n.leftUp, x, y);
      ChildWithin(r, n.rightUp, x, y);
      ChildWithin(r, n.leftDown, x, y);
      ChildWithin(r, n.rightDown, x, y);
      var a1, a2, a3, a4 := CornerTerm(r, n.leftUp, x, y), CornerTerm(r, n.rightUp, x, y),
        CornerTerm(r, n.leftDown, x, y), CornerTerm(r, n.rightDown, x, y);
      var b1, b2, b3, b4 := OverlapTerm(r, n.leftUp, x, y), OverlapTerm(r, n.rightUp, x, y),
        OverlapTerm(r, n.leftDown, x, y), OverlapTerm(r, n.rightDown, x, y);
      SumMono(a1, b1, a2, b2);
      SumMono(a1 + a2, b1 + b2, a3, b3);
      SumMono(a1 + a2 + a3, b1 + b2 + b3, a4, b4);
    }
  }

  lemma {:induction false} ChildWithin(r: real, c: Node, x: real, y: real)
    requires 0.0 <= r
    ensures CornerTerm(r, c, x, y) <= OverlapTerm(r, c, x, y)
    decreases c, 1
  {
    CornersWithinOverlap(r, c, x, y);
    if CornerIn(c.box, x, y, r) {
      CornerMeansOverlap(c.box, x, y, r);
    }
  }

  /** When every node below the root is at least as wide as the window, the search
      as written and the overlap search agree. */
  lemma {:induction false} WideSearchesAgree(r: real, n: Node, x: real, y: real)
    requires 0.0 <= r && Wide(n, r)
    ensures SearchByCorners(r, n, x, y) == SearchByOverlap(r, n, x, y)
    decreases n, 0
  {
    if n.Inner? {
      WideChildAgrees(r, n.leftUp, x, y);
      WideChildAgrees(r, n.rightUp, x, y);
      WideChildAgrees(r, n.leftDown, x, y);
      WideChildAgrees(r, n.rightDown, x, y);
    }
  }

  lemma {:induction false} WideChildAgrees(r: real, c: Node, x: real, y: real)
    requires 0.0 <= r && Wide(c, r) && 2.0 * r <= c.box.width
    ensures CornerTerm(r, c, x, y) == OverlapTerm(r, c, x, y)
    decreases c, 1
  {
    WideSearchesAgree(r, c, x, y);
    if CornerIn(c.box, x, y, r) {
      CornerMeansOverlap(c.box, x, y, r);
    }
    if Overlaps(c.box, x, y, r) {
      WideOverlapHasCorner(c.box, x, y, r);
    }
  }

  lemma SumMono<T>(a: multiset<T>, b: multiset<T>, c: multiset<T>, d: multiset<T>)
    requires a <= b && c <= d
    ensures a + c <= b + d
  {
    forall k
      ensures (a + c)[k] <= (b + d)[k]
    {
      assert a[k] <= b[k] && c[k] <= d[k];
    }
  }

  /** In a valid tree every entity lies inside the square of each node above it. */
  lemma {:induction false} MembersInBox(n: Node)
    requires Valid(n)
    ensures forall e :: e in Members(n) ==> Intersects(n.box, e.x, e.y)
  {
    if n.Inner? {
      MembersOfInner(n);
      forall q | 0 <= q < 4
        ensures forall e :: e in Members(Child(n, q)) ==> Intersects(n.box, e.x, e.y)
      {
        MembersInBox(Child(n, q));
        forall e | e in Members(Child(n, q))
          ensures Intersects(n.box, e.x, e.y)
        {
          QuadrantInside(n.box, q, e.x, e.y);
        }
      }
    }
  }

  /** The position of `e` lies in the closed window of half-side `r` around (x, y). */
  predicate Near(e: Entity, x: real, y: real, r: real) {
    x - r <= e.x <= x + r && y - r <= e.y <= y + r
  }

  /** The overlap search is complete: it reports the name of every entity of a
      valid tree whose position lies in the window. */
  lemma {:induction false} SearchComplete(r: real, n: Node, x: real, y: real, e: Entity)
    requires Valid(n) && e in Members(n) && Near(e, x, y, r)
    ensures e.key in SearchByOverlap(r, n, x, y)
  {
    if n.Leaf? {
      var k :| k in n.entities && n.entities[k] == e;
    } else {
      MembersOfInner(n);
      var q :| 0 <= q < 4 && e in Members(Child(n, q));
      var c := Child(n, q);
      MembersInBox(c);
      assert Overlaps(c.box, x, y, r);
      SearchComplete(r, c, x, y, e);
      assert e.key in OverlapTerm(r, c, x, y);
      assert SearchByOverlap(r, n, x, y) == OverlapTerm(r, n.leftUp, x, y) + OverlapTerm(r, n.rightUp, x, y)
        + OverlapTerm(r, n.leftDown, x, y) + OverlapTerm(r, n.rightDown, x, y);
    }
  }

  /** The overlap search is sound: it reports only names of entities filed in the tree. */
  lemma {:induction false} SearchSound(r: real, n: Node, x: real, y: real)
    requires Placed(n)
    ensures forall k :: k in SearchByOverlap(r, n, x, y) ==> exists e :: e in Members(n) && e.key == k
  {
    if n.Leaf? {
      forall k | k in SearchByOverlap(r, n, x, y)
        ensures exists e :: e in Members(n) && e.key == k
      {
        assert n.entities[k] in Members(n);
      }
    } else {
      MembersOfInner(n);
      SearchSound(r, n.leftUp, x, y);
      SearchSound(r, n.rightUp, x, y);
      SearchSound(r, n.leftDown, x, y);
      SearchSound(r, n.rightDown, x, y);
      assert Child(n, LeftUp) == n.leftUp && Child(n, RightUp) == n.rightUp;
      assert Child(n, LeftDown) == n.leftDown && Child(n, RightDown) == n.rightDown;
    }
  }

  /** The overlap search is selective: below an inner root, every name it reports
      belongs to an entity of the tree whose own leaf (the one its position is
      routed to) meets the window. */
  lemma {:induction false} SearchLocal(r: real, n: Node, x: real, y: real, k: string)
    requires Valid(n) && k in SearchByOverlap(r, n, x, y)
    ensures exists e :: e in Members(n) && e.key == k && (n.Inner? ==> Overlaps(LeafAt(n, e.x, e.y).box, x, y, r))
    decreases n
  {
    if n.Leaf? {
      assert n.entities[k] in Members(n);
    } else {
      assert Child(n, LeftUp) == n.leftUp && Child(n, RightUp) == n.rightUp;
      assert Child(n, LeftDown) == n.leftDown && Child(n, RightDown) == n.rightDown;
      var q :=
        if k in OverlapTerm(r, n.leftUp, x, y) then LeftUp
        else if k in OverlapTerm(r, n.rightUp, x, y) then RightUp
        else if k in OverlapTerm(r, n.leftDown, x, y) then LeftDown
        else RightDown;
      var c := Child(n, q);
      assert k in OverlapTerm(r, c, x, y);
      assert Valid(c);
      SearchLocal(r, c, x, y, k);
      var e :| e in Members(c) && e.key == k && (c.Inner? ==> Overlaps(LeafAt(c, e.x, e.y).box, x, y, r));
      MembersOfInner(n);
      MembersInBox(c);
      RoutedQuadrant(n, e.x, e.y, q);
      assert LeafAt(n, e.x, e.y) == LeafAt(c, e.x, e.y);
    }
  }

  /** In a valid tree every entity sits in the leaf a descent to its own position reaches. */
  lemma {:induction false} MembersRoutable(n: Node)
    requires Valid(n)
    ensures forall e :: e in Members(n) ==> e in LeafAt(n, e.x, e.y).entities.Values
  {
    if n.Inner? {
      MembersOfInner(n);
      forall e | e in Members(n)
        ensures e in LeafAt(n, e.x, e.y).entities.Values
      {
        var q :| 0 <= q < 4 && e in Members(Child(n, q));
        MembersInBox(Child(n, q));
        RoutedQuadrant(n, e.x, e.y, q);
        MembersRoutable(Child(n, q));
      }
    }
  }

  /* ------------------------------------------------------------ whole trees */

  /** The side a node `k` levels above the depth limit needs for every node below
      it to be at least `2 * r` wide: `2 * r` doubled `k` times. */
  ghost function Span(r: real, k: int): real
    decreases k
  {
    if k <= 0 then 2.0 * r else 2.0 * Span(r, k - 1)
  }

  lemma {:induction false} SpanAtLeast(r: real, k: int)
    requires 0.0 <= r
    ensures 2.0 * r <= Span(r, k)
    decreases k
  {
    if k > 0 {
      SpanAtLeast(r, k - 1);
    }
  }

  /** A shaped subtree no deeper than `d` whose square is at least `Span(r, d - deep)`
      wide has every node below it at least `2 * r` wide. */
  lemma {:induction false} WideBelow(n: Node, r: real, d: int)
    requires 0.0 <= r && Shaped(n) && DepthWithin(n, d) && Span(r, d - n.deep) <= n.box.width
    ensures Wide(n, r)
    decreases n
  {
    if n.Inner? {
      forall q | 0 <= q < 4
        ensures 2.0 * r <= Child(n, q).box.width && Wide(Child(n, q), r)
      {
        var c := Child(n, q);
        assert c.deep == n.deep + 1 && c.deep <= d;
        assert Span(r, d - n.deep) == 2.0 * Span(r, d - c.deep);
        assert c.box.width * 2.0 == n.box.width;
        SpanAtLeast(r, d - c.deep);
        WideBelow(c, r, d);
      }
      assert Child(n, LeftUp) == n.leftUp && Child(n, RightUp) == n.rightUp;
      assert Child(n, LeftDown) == n.leftDown && Child(n, RightDown) == n.rightDown;
    }
  }

  /** A new tree is valid, one level deep, within capacity and empty. */
  lemma NewTreeValid(xStart: real, yStart: real, width: real)
    ensures var t := NewQuadTree(xStart, yStart, width);
      Valid(t.root) && DepthWithin(t.root, t.cfg.maxDeep) && WithinCapacity(t.cfg, t.root)
      && Members(t.root) == {} && Search(t, xStart, yStart) == multiset{}
  {
  }

  /** Adding inside the root's square makes a search at that position report the name. */
  lemma AddThenSearchFinds(t: Tree, x: real, y: real, name: string)
    requires Valid(t.root) && Intersects(t.root.box, x, y) && 0.0 <= t.cfg.radius
    ensures Valid(TreeAdd(t, x, y, name).root)
    ensures name in Search(TreeAdd(t, x, y, name), x, y)
  {
    var r := TreeAdd(t, x, y, name).root;
    AddValid(t.cfg, t.root, x, y, name);
    AddMembers(t.cfg, t.root, x, y, name);
    SearchComplete(t.cfg.radius, r, x, y, Entity(x, y, name));
  }

  /** On a tree whose root is wide enough for its depth limit, the search as the
      program performs it also reports a name just added at the query position. */
  lemma AddThenSearchAsWrittenFinds(t: Tree, x: real, y: real, name: string)
    requires Valid(t.root) && DepthWithin(t.root, t.cfg.maxDeep)
    requires Intersects(t.root.box, x, y) && 0.0 <= t.cfg.radius
    requires Span(t.cfg.radius, t.cfg.maxDeep - t.root.deep) <= t.root.box.width
    ensures Wide(TreeAdd(t, x, y, name).root, t.cfg.radius)
    ensures name in SearchAsWritten(TreeAdd(t, x, y, name), x, y)
  {
    var r := TreeAdd(t, x, y, name).root;
    AddThenSearchFinds(t, x, y, name);
    AddKeepsDepth(t.cfg, t.root, x, y, name, t.cfg.maxDeep);
    WideBelow(r, t.cfg.radius, t.cfg.maxDeep);
    WideSearchesAgree(t.cfg.radius, r, x, y);
  }

  /** The search as the program performs it is selective too: every name it
      reports belongs to an entity whose leaf meets the window. */
  lemma SearchAsWrittenLocal(t: Tree, x: real, y: real, k: string)
    requires Valid(t.root) && 0.0 <= t.cfg.radius && k in SearchAsWritten(t, x, y)
    ensures exists e :: e in Members(t.root) && e.key == k && (t.root.Inner? ==> Overlaps(LeafAt(t.root, e.x, e.y).box, x, y, t.cfg.radius))
  {
    CornersWithinOverlap(t.cfg.radius, t.root, x, y);
    SearchLocal(t.cfg.radius, t.root, x, y, k);
  }

  /** Adding never hides another name from a search that found its entity. */
  lemma AddKeepsNearby(t: Tree, x: real, y: real, name: string, e: Entity, qx: real, qy: real)
    requires Valid(t.root) && Intersects(t.root.box, x, y)
    requires e in Members(t.root) && e.key != name && Near(e, qx, qy, t.cfg.radius)
    ensures e.key in Search(TreeAdd(t, x, y, name), qx, qy)
  {
    var r := TreeAdd(t, x, y, name).root;
    AddValid(t.cfg, t.root, x, y, name);
    AddMembers(t.cfg, t.root, x, y, name);
    SearchComplete(t.cfg.radius, r, qx, qy, e);
  }

  /** Deleting an entity at its own position, when no other entity carries its
      name, leaves no entity of that name and no search reports it. */
  lemma DeleteAtOwnPosition(t: Tree, e: Entity, qx: real, qy: real)
    requires Valid(t.root) && e in Members(t.root)
    requires forall f :: f in Members(t.root) && f.key == e.key ==> f == e
    ensures forall f :: f in Members(TreeDelete(t, e.x, e.y, e.key).root) ==> f.key != e.key
    ensures e.key !in Search(TreeDelete(t, e.x, e.y, e.key), qx, qy)
  {
    var n := t.root;
    var r := TreeDelete(t, e.x, e.y, e.key).root;
    DeleteValid(n, e.x, e.y, e.key);
    DeleteMembers(n, e.x, e.y, e.key);
    DeleteRemoves(n, e.x, e.y, e.key);
    MembersRoutable(r);
    forall f | f in Members(r)
      ensures f.key != e.key
    {
      if f.key == e.key {
        assert f == e;
        var l := LeafAt(r, e.x, e.y);
        var k :| k in l.entities && l.entities[k] == e;
        LeafAtPlaced(r, e.x, e.y);
      }
    }
    SearchSound(t.cfg.radius, r, qx, qy);
  }

  /** Delete-then-search holds for the search the program performs as well. */
  lemma DeleteAtOwnPositionAsWritten(t: Tree, e: Entity, qx: real, qy: real)
    requires Valid(t.root) && e in Members(t.root) && 0.0 <= t.cfg.radius
    requires forall f :: f in Members(t.root) && f.key == e.key ==> f == e
    ensures e.key !in SearchAsWritten(TreeDelete(t, e.x, e.y, e.key), qx, qy)
  {
    var d := TreeDelete(t, e.x, e.y, e.key);
    DeleteAtOwnPosition(t, e, qx, qy);
    CornersWithinOverlap(t.cfg.radius, d.root, qx, qy);
  }

  /** The leaf a descent reaches in a placed tree files entities under their names. */
  lemma {:induction false} LeafAtPlaced(n: Node, x: real, y: real)
    requires Placed(n)
    ensures Placed(LeafAt(n, x, y))
  {
    if n.Inner? {
      LeafAtPlaced(Child(n, FindSonQuadrant(n, x, y)), x, y);
    }
  }
}

=== FILE: quadtree_scenarios.dfy ===
/**
 * The quadtree test tables, on the tree over the 100 × 100 square at the origin.
 */
module QuadTreeScenarios {
  import opened Aoi
  import opened QuadTree
  import opened QuadTreeProofs

  function Square100(): Node {
    NewQuadTree(0.0, 0.0, 100.0).root
  }

  /** Routing in the root after one cut, and in its right-up child after a second. */
  lemma FindQuadrantScenario()
    ensures var root := Cut(Square100());
      && FindSonQuadrant(root, 49.9, 49.9) == LeftUp
      && FindSonQuadrant(root, 50.0, 50.0) == RightDown
      && FindSonQuadrant(root, 49.9, 50.0) == LeftDown
      && FindSonQuadrant(root, 50.0, 49.9) == RightUp
    ensures var son := Cut(Cut(Square100()).rightUp);
      && FindSonQuadrant(son, 74.9, 24.9) == LeftUp
      && FindSonQuadrant(son, 75.0, 25.0) == RightDown
      && FindSonQuadrant(son, 74.9, 25.0) == LeftDown
      && FindSonQuadrant(son, 75.0, 24.9) == RightUp
  {
  }

  /** The configuration of the search and cut tests: capacity 2, radius 5. */
  const Small: Config := Config(2, DefaultMaxDeep, 5.0)

  /** With capacity 2 the root needs no cut when empty or holding one entity, and
      needs one once it holds two. */
  lemma NeedCutScenario()
    ensures !NeedCut(Small, Square100())
    ensures var t1 := Add(Small, Square100(), 60.9, 24.9, "player1");
      && t1.Leaf? && !NeedCut(Small, t1)
      && var t2 := Add(Small, t1, 25.0, 25.0, "player2");
      t2.Leaf? && NeedCut(Small, t2)
  {
    var t1 := Add(Small, Square100(), 60.9, 24.9, "player1");
    assert t1 == Leaf(Box(0.0, 0.0, 100.0), 1, map["player1" := Entity(60.9, 24.9, "player1")]);
    var t2 := Add(Small, t1, 25.0, 25.0, "player2");
    assert t2 == Leaf(Box(0.0, 0.0, 100.0), 1, map["player1" := Entity(60.9, 24.9, "player1"), "player2" := Entity(25.0, 25.0, "player2")]);
    assert |t2.entities| == 2;
  }

  /* The players of the search test. */
  function P1(): Entity { Entity(60.9, 24.9, "player1") }
  function P2(): Entity { Entity(25.0, 25.0, "player2") }
  function P3(): Entity { Entity(99.0, 24.0, "player3") }
  function P4(): Entity { Entity(72.0, 23.0, "player4") }
  function P5(): Entity { Entity(49.9, 49.9, "player5") }

  function Put(n: Node, e: Entity): Node
    requires n.Leaf?
  {
    n.(entities := n.entities[e.key := e])
  }

  /** The tree after players 1 and 2: still one leaf. */
  function Tree2(): Node {
    Put(Put(Square100(), P1()), P2())
  }

  /** A cut root with the given left-up and right-up children and empty lower ones. */
  function Root(leftUp: Node, rightUp: Node): Node {
    Inner(Box(0.0, 0.0, 100.0), 1, leftUp, rightUp, EmptyLeaf(0.0, 50.0, 50.0, 2), EmptyLeaf(50.0, 50.0, 50.0, 2))
  }

  /** After player 3 the root is cut: player 2 goes left-up, players 1 and 3 right-up. */
  function Tree3(): Node {
    Root(Put(EmptyLeaf(0.0, 0.0, 50.0, 2), P2()), Put(Put(EmptyLeaf(50.0, 0.0, 50.0, 2), P1()), P3()))
  }

  /** After player 4 the right-up child is cut: players 1 and 4 left-up in it, player 3 right-up. */
  function RightUpCut(): Node {
    Inner(Box(50.0, 0.0, 50.0), 2,
      Put(Put(EmptyLeaf(50.0, 0.0, 25.0, 3), P1()), P4()),
      Put(EmptyLeaf(75.0, 0.0, 25.0, 3), P3()),
      EmptyLeaf(50.0, 25.0, 25.0, 3),
      EmptyLeaf(75.0, 25.0, 25.0, 3))
  }

  function Tree4(): Node {
    Root(Put(EmptyLeaf(0.0, 0.0, 50.0, 2), P2()), RightUpCut())
  }

  /** Player 5 joins player 2 in the root's left-up leaf. */
  function Tree5(): Node {
    Root(Put(Put(EmptyLeaf(0.0, 0.0, 50.0, 2), P2()), P5()), RightUpCut())
  }

  lemma BuildTree2()
    ensures Add(Small, Add(Small, Square100(), 60.9, 24.9, "player1"), 25.0, 25.0, "player2") == Tree2()
  {
  }

  /** Son `q` of a leaf holding two entities files those of the two inside its quarter. */
  lemma SonOfPair(n: Node, a: Entity, b: Entity, q: int)
    requires n.Leaf? && n.entities == map[a.key := a, b.key := b] && a.key != b.key && 0 <= q < 4
    ensures var inA, inB := Intersects(Quadrant(n.box, q), a.x, a.y), Intersects(Quadrant(n.box, q), b.x, b.y);
      && (inA && !inB ==> Son(n, q).entities == map[a.key := a])
      && (!inA && inB ==> Son(n, q).entities == map[b.key := b])
      && (!inA && !inB ==> Son(n, q).entities == map[])
  {
  }

  /** Cutting a leaf of two entities lying in two given quarters. */
  lemma CutPair(n: Node, a: Entity, b: Entity, qa: int, qb: int)
    requires n.Leaf? && n.entities == map[a.key := a, b.key := b] && a.key != b.key
    requires 0 <= qa < 4 && 0 <= qb < 4 && qa != qb
    requires forall q :: 0 <= q < 4 ==> (Intersects(Quadrant(n.box, q), a.x, a.y) <==> q == qa)
    requires forall q :: 0 <= q < 4 ==> (Intersects(Quadrant(n.box, q), b.x, b.y) <==> q == qb)
    ensures Child(Cut(n), qa).entities == map[a.key := a]
    ensures Child(Cut(n), qb).entities == map[b.key := b]
    ensures forall q :: 0 <= q < 4 && q != qa && q != qb ==> Child(Cut(n), q).entities == map[]
  {
    SonOfPair(n, a, b, 0);
    SonOfPair(n, a, b, 1);
    SonOfPair(n, a, b, 2);
    SonOfPair(n, a, b, 3);
  }

  lemma BuildTree3()
    ensures Add(Small, Tree2(), 99.0, 24.0, "player3") == Tree3()
  {
    var t2 := Tree2();
    assert t2.entities == map[P1().key := P1(), P2().key := P2()];
    assert |t2.entities| == 2;
    assert NeedCut(Small, t2);
    CutPair(t2, P1(), P2(), RightUp, LeftUp);
    var c := Cut(t2);
    assert FindSonQuadrant(c, 99.0, 24.0) == RightUp;
  }

  lemma BuildTree4()
    ensures Add(Small, Tree3(), 72.0, 23.0, "player4") == Tree4()
  {
    var t3 := Tree3();
    assert FindSonQuadrant(t3, 72.0, 23.0) == RightUp;
    var ru := t3.rightUp;
    assert ru.entities == map[P1().key := P1(), P3().key := P3()];
    assert |ru.entities| == 2;
    assert NeedCut(Small, ru);
    CutPair(ru, P1(), P3(), LeftUp, RightUp);
    var c := Cut(ru);
    assert FindSonQuadrant(c, 72.0, 23.0) == LeftUp;
    assert !NeedCut(Small, c.leftUp);
    assert Add(Small, ru, 72.0, 23.0, "player4") == RightUpCut();
  }

  lemma BuildTree5()
    ensures Add(Small, Tree4(), 49.9, 49.9, "player5") == Tree5()
  {
    var t4 := Tree4();
    assert FindSonQuadrant(t4, 49.9, 49.9) == LeftUp;
    assert |t4.leftUp.entities| == 1;
  }

  lemma DeleteFromTree5()
    ensures Delete(Tree5(), 49.9, 49.9, "player5") == Tree4()
  {
    var t5 := Tree5();
    assert FindSonQuadrant(t5, 49.9, 49.9) == LeftUp;
    assert t5.leftUp.entities - {"player5"} == map["player2" := P2()];
  }

  /** The two-entity leaf names. */
  lemma PairNames(a: Entity, b: Entity)
    requires a.key != b.key
    ensures Names(map[a.key := a, b.key := b]) == multiset{a.key, b.key}
  {
    assert map[a.key := a, b.key := b].Keys == {a.key, b.key};
  }

  /** Inside the cut right-up child, a search at player 1 reaches only the leaf of players 1 and 4. */
  lemma RightUpCutAtP1()
    ensures SearchByCorners(5.0, RightUpCut(), 60.9, 24.9) == multiset{"player1", "player4"}
  {
    var n := RightUpCut();
    assert CornerIn(n.leftUp.box, 60.9, 24.9, 5.0);
    assert !CornerIn(n.rightUp.box, 60.9, 24.9, 5.0);
    assert CornerIn(n.leftDown.box, 60.9, 24.9, 5.0);
    assert !CornerIn(n.rightDown.box, 60.9, 24.9, 5.0);
    PairNames(P1(), P4());
    assert n.leftUp.entities == map["player1" := P1(), "player4" := P4()];
    assert SearchByCorners(5.0, n.leftDown, 60.9, 24.9) == multiset{};
  }

  /** The searches of the test, at player 1 and player 2, after each step: the test
      checks the counts, here the names themselves are fixed. */
  lemma SearchScenarioSteps()
    ensures SearchByCorners(5.0, Tree2(), 60.9, 24.9) == multiset{"player1", "player2"}
    ensures SearchByCorners(5.0, Tree3(), 60.9, 24.9) == multiset{"player1", "player3"}
  {
  }

  lemma SearchTree4AtP1()
    ensures SearchByCorners(5.0, Tree4(), 60.9, 24.9) == multiset{"player1", "player4"}
  {
    var n := Tree4();
    assert !CornerIn(n.leftUp.box, 60.9, 24.9, 5.0);
    assert CornerIn(n.rightUp.box, 60.9, 24.9, 5.0);
    assert !CornerIn(n.leftDown.box, 60.9, 24.9, 5.0);
    assert !CornerIn(n.rightDown.box, 60.9, 24.9, 5.0);
    RightUpCutAtP1();
  }

  lemma SearchAtP2(left: Node)
    requires left.Leaf? && left.box == Box(0.0, 0.0, 50.0)
    ensures SearchByCorners(5.0, Root(left, RightUpCut()), 25.0, 25.0) == Names(left.entities)
  {
    var n := Root(left, RightUpCut());
    assert CornerIn(n.leftUp.box, 25.0, 25.0, 5.0);
    assert !CornerIn(n.rightUp.box, 25.0, 25.0, 5.0);
    assert !CornerIn(n.leftDown.box, 25.0, 25.0, 5.0);
    assert !CornerIn(n.rightDown.box, 25.0, 25.0, 5.0);
  }

  lemma SearchTree4And5AtP2()
    ensures SearchByCorners(5.0, Tree4(), 25.0, 25.0) == multiset{"player2"}
    ensures SearchByCorners(5.0, Tree5(), 25.0, 25.0) == multiset{"player2", "player5"}
  {
    SearchAtP2(Tree4().leftUp);
    SearchAtP2(Tree5().leftUp);
    PairNames(P2(), P5());
    assert Tree5().leftUp.entities == map["player2" := P2(), "player5" := P5()];
  }

  /** The trees of the search test: capacity 2 and radius 5, the five players added
      and player 5 deleted in turn. */
  lemma ScenarioTrees()
    ensures var t2 := Add(Small, Add(Small, Square100(), 60.9, 24.9, "player1"), 25.0, 25.0, "player2");
      var t3 := Add(Small, t2, 99.0, 24.0, "player3");
      var t4 := Add(Small, t3, 72.0, 23.0, "player4");
      var t5 := Add(Small, t4, 49.9, 49.9, "player5");
      && t2 == Tree2() && t3 == Tree3() && t4 == Tree4() && t5 == Tree5()
      && Delete(t5, 49.9, 49.9, "player5") == Tree4()
  {
    BuildTree2();
    BuildTree3();
    BuildTree4();
    BuildTree5();
    DeleteFromTree5();
  }

  /** The counts the search test expects, at player 1 and at player 2 after each step
      (the tree after deleting player 5 is the tree before adding it). */
  lemma SearchScenario()
    ensures |SearchAsWritten(Tree(Small, Tree2()), 60.9, 24.9)| == 2
    ensures |SearchAsWritten(Tree(Small, Tree3()), 60.9, 24.9)| == 2
    ensures |SearchAsWritten(Tree(Small, Tree4()), 60.9, 24.9)| == 2
    ensures |SearchAsWritten(Tree(Small, Tree4()), 25.0, 25.0)| == 1
    ensures |SearchAsWritten(Tree(Small, Tree5()), 25.0, 25.0)| == 2
  {
    SearchScenarioSteps();
    SearchTree4AtP1();
    SearchTree4And5AtP2();
  }

  /** No square in these trees is narrower than the window, so the overlap search
      answers every query as the program does. */
  lemma ScenarioSearchesAgree(x: real, y: real)
    ensures Search(Tree(Small, Tree4()), x, y) == SearchAsWritten(Tree(Small, Tree4()), x, y)
    ensures Search(Tree(Small, Tree5()), x, y) == SearchAsWritten(Tree(Small, Tree5()), x, y)
  {
    assert Wide(Tree4(), 5.0) && Wide(Tree5(), 5.0);
    WideSearchesAgree(5.0, Tree4(), x, y);
    WideSearchesAgree(5.0, Tree5(), x, y);
  }
}
